=== FILE: README.md ===
# exercism-repo-watch: the query command, in Dafny

`exercism-repo-watch` is a small command-line tool. It lists the repositories of the
`exercism` GitHub organisation, shows which ones the user watches, lets the user
pick the set they want to watch, and then subscribes to or unsubscribes from
the difference. This project models the logic of its query command,
`lib/commands/query.js`, and proves what that logic guarantees. The command is
broken into the following parts:

- **Page count** (`LinkHeader`). This module models `getNumberOfPages`. It splits the `Link` response header
  on `", "` and then on `"; "`, takes the first segment whose second part is
  `rel="last"`, and reads the digits after the leftmost `?page=` or `&page=` followed by a digit in
  that segment's URL. A formatter for well-formed headers serves as the partner:
  parsing a formatted header gives back the page number that was put in it.
- **Paged fetch** (`Paging`). This module models `getAllPages`. The first request carries the caller's
  parameters, and requests for pages 2..L follow one at a time. The HTTP client is a
  parameter: a total function from request to response or error.
- **Repository lists** (`Repositories`). This module models `getRepositories`,
  `getOrgRepositories`, `getWatchedRepositories` and the comparator
  `alphabeticallyCaseInsensitive`. The pages are flattened, mapped to
  `full_name`, and stably sorted by lower-cased name. The organisation list then drops
  the names containing `DEPRECATED`. The sort is an insertion sort. The model proves
  that it returns a sorted permutation that keeps the order of equal keys, and that
  it is the only such arrangement.
- **Plan** (`Planning`). This module models `addWatchedStatus`, the pre-checked default of the
  checkbox prompt, and the `toAdd` / `toRemove` lists the handler computes.
- **Subscription calls** (`Mutations`). This module models `addSubscription(s)` and
  `removeSubscription(s)`. Each call goes to owner `exercism`, with the part of the
  name after the first `/`. The calls go one at a time, and the first rejection ends
  the batch. The API is a parameter: whether each call resolves.
- **Handler** (`Query`). The confirmation prompts are shown only for non-empty
  lists. Additions come before removals, each only when confirmed, and a rejected
  addition skips every removal. The whole run after the token is read is
  `Query.Handle`. The user's answers are parameters.

`Outcomes` holds `Option` and `Result`. `Strings` holds the JavaScript string
built-ins the code relies on: `indexOf`, `split`, `toLowerCase`, the greedy
`\d+`, and `Number` of a digit string. `Sequences` holds `Array.prototype.filter`
and the subsequence relation.

A listing response sent without a `Link` header makes `getNumberOfPages` throw,
because `links` is `undefined` and has no `split`. A header with no `rel="last"`
segment, such as the one on the last page, makes it throw as well. So a
listing whose first response carries neither makes the fetch reject rather
than return that one page. The
model returns `Err(MissingLinkHeader)` and `Err(NoLastRelation)` for these cases.

## Model

| member | source | states |
|---|---|---|
| Strings.IndexOf | lib/commands/query.js:174 | `indexOf` gives the least index at which the pattern occurs; it gives none (JavaScript's -1) exactly when the pattern occurs nowhere |
| Strings.Split | lib/commands/query.js:207-208 | `split` always yields at least one piece, and no piece contains the separator |
| Strings.JoinSplit | lib/commands/query.js:207-208 | joining the pieces of a split with the same separator gives back the original string |
| Strings.SplitJoin | lib/commands/query.js:207-208 | splitting a join of pieces that do not hold the separator's first character recovers exactly those pieces |
| Strings.DigitRun | lib/commands/query.js:211 | the greedy `\d+` takes the longest all-digit prefix: every character taken is a digit, and the next one is not |
| Strings.DecimalRoundTrip | lib/commands/query.js:211 | `Number` of the decimal digits of n is n |
| Strings.DigitRunStops | lib/commands/query.js:211 | a digit run followed by a non-digit (the closing `>`) is read up to that character and no further |
| Strings.LexTotal | lib/commands/query.js:214-216 | any two lower-cased names are comparable |
| Strings.LexTransitive | lib/commands/query.js:214-216 | the name order is transitive |
| Strings.LexAntisymmetric | lib/commands/query.js:214-216 | two names ordered both ways are equal |
| Sequences.Filter | lib/commands/query.js:143-145 | `filter` keeps exactly the elements that pass the test and is never longer than its input |
| Sequences.FilterCounts | lib/commands/query.js:143-145 | `filter` keeps every copy of a kept element and no copy of any other |
| Sequences.FilterSubsequence | lib/commands/query.js:33-35 | `filter` keeps the relative order of what it keeps |
| Sequences.FilterAppend | lib/commands/query.js:136-140 | filtering a concatenation is concatenating the filtered parts |
| LinkHeader.FirstLast | lib/commands/query.js:209 | `.filter(...)[0]` picks the first segment whose second part is `rel="last"`; it is absent exactly when no segment qualifies |
| LinkHeader.PageParameter | lib/commands/query.js:211 | the match of `page=` after `&` or `?` followed by digits is absent exactly when no position matches; otherwise its group is the non-empty digit run at a matching position |
| LinkHeader.ParameterAtLeftmostMatch | lib/commands/query.js:211 | the captured digits are those after the leftmost match |
| LinkHeader.GetNumberOfPages | lib/commands/query.js:202-212 | the call fails for a missing header, and fails for want of a `rel="last"` segment exactly when there is none. Otherwise the first `rel="last"` segment decides: the count is the number its URL's `page=` digits spell, and the call fails when that URL has no page parameter |
| LinkHeader.SegmentsOfFormattedHeader | lib/commands/query.js:206-208 | a header formatted from well-formed entries splits back into one `[<url>, rel="…"]` pair per entry |
| LinkHeader.PageParameterAfterPerPage | lib/commands/query.js:211 | in `<base?per_page=d1&page=d2>` the page parameter is `d2`: `per_page=` is never mistaken for it |
| LinkHeader.PageCountOfFormattedHeader | lib/commands/query.js:202-212 | a header whose first `last` entry points at page n is read as n pages |
| LinkHeader.PageParameterAfterPlain | lib/commands/query.js:211 | in `a?page=d>` with no `&` or `?` in `a`, the match is at the `?` and the page parameter is `d` |
| LinkHeader.PageParameterOfBarePageUrl | lib/commands/query.js:211 | in `<base?page=d>`, as the subscription listing sends it, the page parameter is `d` |
| LinkHeader.PageCountOfBareHeader | lib/commands/query.js:202-212 | a header whose first `last` entry is `<base?page=n>` is read as n pages |
| LinkHeader.NoLastEntry | lib/commands/query.js:206-211 | a header with no `last` entry (as sent on the last page) makes the call fail |
| Paging.GetAllPages | lib/commands/query.js:151-162 | the first request is the caller's, and request k asks for page k. A success yields max(1, L) responses in request order. An unreadable first response stops the fetch after one request. After a readable one, a failure is always the rejection of the last page request sent, and nothing follows it. The fetch succeeds when every needed page can be fetched. In all, the requests and the outcome equal `FetchRequests` and `FetchAll`, which are defined by the first failing page and not by the loop |
| Paging.FetchPages | lib/commands/query.js:156-159 | the loop requests pages 2..n in order, one response per request. It stops exactly at the first failing page that `FirstFailedPage` names, and rejects with that request's error |
| Paging.FirstFailedPage | lib/commands/query.js:156-159 | the page it names fails and every page before it succeeds; when it names none, every page in the range succeeds |
| Paging.FetchedRequestsSucceed | lib/commands/query.js:151-162 | a fetch starts with the caller's request; a successful one got a response to every request it sent, and its pages are those responses in order |
| Paging.AscendingPages | lib/commands/query.js:156-158 | pages are requested in strictly ascending order |
| Repositories.CompareCaseInsensitive | lib/commands/query.js:214-216 | the comparator is negative, zero or positive exactly when the lower-cased first name sorts before, equals or sorts after the second |
| Repositories.CompareAntisymmetric | lib/commands/query.js:214-216 | swapping the arguments negates the comparator |
| Repositories.CompareTransitive | lib/commands/query.js:214-216 | the comparator is transitive, as a sort requires |
| Repositories.Insert | lib/commands/query.js:140 | inserting into a sorted list keeps it sorted, adds exactly the new name, and places it after the names with an equal key |
| Repositories.SortCaseInsensitive | lib/commands/query.js:136-140 | `.sort(alphabeticallyCaseInsensitive)` returns a sorted permutation of its input that keeps equal keys in input order |
| Repositories.SortedStableUnique | lib/commands/query.js:140 | two sorted arrangements with the same per-key order are equal |
| Repositories.SortIsTheStableSort | lib/commands/query.js:140 | any sorted, stable rearrangement of the input is the sort's result |
| Repositories.SubsequenceSorted | lib/commands/query.js:142-146 | an order-preserving selection from a sorted list is sorted |
| Repositories.WithoutSubstring | lib/commands/query.js:142-146 | the filter drops exactly the names with the case-sensitive substring, keeps every copy of the rest in order, and preserves sortedness |
| Repositories.ResolveNames | lib/commands/query.js:134-148 | the result is sorted; it holds every fetched `full_name` with its multiplicity, less the filtered ones when the filter is non-empty; unfiltered, equal keys keep page order |
| Repositories.GetRepositories | lib/commands/query.js:133-149 | the requests are the first one, then pages 2, 3, … in order. Every request but the last succeeded. On success all max(1, L) pages were fetched, L being the last page the first response names, and the result is the resolved name list of those pages. An unreadable first response stops the listing after one request. A later failure is the rejection of the last page request sent. The listing succeeds whenever every page it needs can be fetched. In all, it sends `FetchRequests` and returns `Listing` |
| Repositories.ListingResolved | lib/commands/query.js:133-149 | a listing that resolves is sorted, and with a non-empty filter it holds no name containing the pattern |
| Repositories.FilteredNames | lib/commands/query.js:142-146 | with a non-empty filter, no name left holds the pattern, and every name without it keeps its multiplicity |
| Repositories.GetOrgRepositories | lib/commands/query.js:117-127 | the organisation listing sends `FetchRequests` and returns `Listing` with the `DEPRECATED` filter. So every page 1..max(1, L) is fetched in order, or the pages up to the first failing one, and an unreadable first response stops it after one request. On success the list is the resolved names of those pages: sorted, with no name containing `DEPRECATED`, and every other name kept |
| Repositories.GetWatchedRepositories | lib/commands/query.js:129-131 | the subscription listing sends `FetchRequests` and returns `Listing` with no filter. So every page 1..max(1, L) is fetched in order, or the pages up to the first failing one, and an unreadable first response stops it after one request. On success the list is a sorted permutation of the names on those pages that keeps page order between equal keys |
| Planning.AddWatchedStatus | lib/commands/query.js:108-115 | one entry per repository, in order, watched exactly when subscribed |
| Planning.DefaultIsWatchedRepos | lib/commands/query.js:74-76 | the pre-checked default is exactly the subscribed organisation repositories, in organisation-list order |
| Planning.WatchedFilter | lib/commands/query.js:36-40 | `toRemove` is the organisation list filtered to the subscribed, unselected repositories |
| Planning.MakePlan | lib/commands/query.js:26-40 | `toAdd` holds exactly the selected repositories not subscribed, in selection order. `toRemove` holds exactly the subscribed organisation repositories not selected, in organisation order. The two lists are disjoint |
| Planning.DefaultPlansNothing | lib/commands/query.js:26-40 | keeping the pre-checked default plans no change at all |
| Planning.PlanReconciles | lib/commands/query.js:33-40 | applying both lists makes the subscriptions inside the organisation equal to the selection and leaves those outside it untouched |
| Mutations.RepoSegmentWithoutSlash | lib/commands/query.js:174 | a name without `/` is sent whole |
| Mutations.RepoSegmentAfterFirstSlash | lib/commands/query.js:174 | otherwise the repository sent is everything after the first `/` |
| Mutations.RepoSegmentOfFullName | lib/commands/query.js:189 | `owner/repo` with a slash-free owner is sent as `repo`, even when `repo` holds a slash |
| Mutations.Calls | lib/commands/query.js:171-190 | one call per name, each with the batch's action and owner `exercism` |
| Mutations.Batch | lib/commands/query.js:164-169 | a batch sends a prefix of its calls; it sends all of them unless it fails, and a failed batch sent at least one |
| Mutations.BatchAccepted | lib/commands/query.js:164-169 | every call before the last was accepted, and the batch failed exactly when its last call was rejected |
| Mutations.BatchAppend | lib/commands/query.js:51-60 | running two batches back to back, the second only if the first went through, is one batch over the concatenated calls |
| Mutations.RunBatch | lib/commands/query.js:165-168 | the loop issues exactly the calls of the batch and stops at the first rejection |
| Mutations.AddSubscriptions | lib/commands/query.js:164-177 | `addSubscriptions` is the subscribe batch; call k subscribes owner `exercism` to the segment of name k |
| Mutations.RemoveSubscriptions | lib/commands/query.js:179-191 | `removeSubscriptions` is the unsubscribe batch; call k unsubscribes owner `exercism` from the segment of name k |
| Mutations.AppliedIsLongestSuccessfulPrefix | lib/commands/query.js:164-169 | what takes effect is the longest accepted prefix of the calls; the next call, if any, was rejected |
| Query.ConfirmedOnlyWhenAsked | lib/commands/query.js:81-106 | each confirmation is shown exactly when its list is non-empty, and counts as yes exactly when shown and accepted |
| Query.Intended | lib/commands/query.js:46-61 | every intended call goes to `exercism`; no subscribe call without the add confirmation and no unsubscribe call without the remove confirmation; all subscribe calls come before all unsubscribe calls |
| Query.Execute | lib/commands/query.js:46-61 | the handler's gated calls are one batch over the intended calls, so a rejected addition prevents every removal |
| Query.ExecutedPrefix | lib/commands/query.js:46-61 | what is executed is a prefix of the intended calls, all accepted but a rejected last one, and all of them when none is rejected |
| Query.AllConfirmed | lib/commands/query.js:46-61 | confirming both prompts intends every addition followed by every removal |
| Query.EmptyPlanIntendsNothing | lib/commands/query.js:92-103 | an empty plan intends no call |
| Query.ConfirmAndApply | lib/commands/query.js:42-61 | confirmation then application. What is sent, success or failure, is the batch of the confirmed calls: a prefix of them, so no unconfirmed call is made and a rejected addition skips every removal. On success the calls are exactly the intended ones, all accepted; on failure the last call is the rejected one |
| Query.Reconcile | lib/commands/query.js:26-61 | the plan is built from the fetched lists and the selection, and what is sent is the batch of that plan's confirmed calls. Keeping the default selection makes no call |
| Query.FetchLists | lib/commands/query.js:19-22 | the organisation listing is requested, then the subscription listing only when the first succeeded. The result is both lists exactly when both listings resolve; otherwise it is the first failing listing's error |
| Query.ListingsStartWithOrg | lib/commands/query.js:19 | the organisation listing is requested first |
| Query.ListingsSorted | lib/commands/query.js:19-22 | both fetched lists are sorted, and the organisation list holds no name containing `DEPRECATED` |
| Query.ListingsSucceed | lib/commands/query.js:19-22 | when both listings resolve, every listing request sent succeeded |
| Query.Handle | lib/commands/query.js:13-62 | the listing requests are the organisation's, then the subscriptions' when the first succeeded. A fetch failure is reported exactly when a listing fails. It carries the error of the first listing that failed, and then nothing is called. With both lists fetched, the plan is the one built from them and the selection. What is sent is the batch of that plan's confirmed calls, and on success the result is that plan. Every call goes to `exercism`. A user who keeps the default makes no call |

## Left out

- The token store (`lib/secrets.js`) and the token commands are not part of this model. Nor is reading the token and building the Octokit client (lines 14-15): `Query.Handle` starts after them.
- `tokenNotSet` (lines 193-200) is never called, and it only prints and exits.
- Spinners, console output, `chalk` colouring, the prompt texts and the prompt fields other than `choices`, `default` and `when` are display-only.
- `localeCompare` is modelled as code-point lexicographic order of the lower-cased names. ICU collation rules are not modelled. `toLowerCase` is modelled on ASCII letters only.
- `Number` of the page digits is unbounded here. JavaScript loses precision above 2^53, which no page count reaches.
- The HTTP client and the subscription API are stateless functions of the request. Server-side state changes between calls are not modelled. An HTTP error is represented by its status code only.
- `async`/`await` is modelled as sequential code, because every call is awaited in turn.
- Setting `reqParams.page` mutates one shared object in the code. The model copies the parameters per request, which is equivalent because each request is sent before the next mutation.
- The checkbox prompt is an oracle. `inquirer` only returns names among the choices, so `Planning.PlanReconciles` requires the selection to come from the organisation list.

=== FILE: link_header.dfy ===
/** `getNumberOfPages` (lib/commands/query.js:202-212): reading the last page
    number out of the `Link` response header, a naive reading of the
    `<url>; rel="..."` entries of RFC 8288 (Web Linking), section 3. */
module LinkHeader {
  import opened Outcomes
  import opened Strings

  /** Why `getNumberOfPages` throws. */
  datatype PageCountError =
    | MissingLinkHeader   // `links` is undefined, so `links.split` throws
    | NoLastRelation      // no segment has rel="last", so `lastLink[0]` throws
    | NoPageParameter     // the last URL has no page parameter, so `match(...)[2]` throws

  const SegmentSeparator := ", "
  const ParamSeparator := "; "
  const LastRelation := "rel=\"last\""

  /** `links.split(', ').map((links) => links.split('; '))`. */
  function Segments(links: string): seq<seq<string>>
  {
    var segs := Split(links, SegmentSeparator);
    seq(|segs|, k requires 0 <= k < |segs| => Split(segs[k], ParamSeparator))
  }

  /** The filter `([apiLink, rel]) => rel === 'rel="last"'`: a segment with
      a single part destructures `rel` to `undefined` and is dropped. */
  predicate IsLast(parts: seq<string>)
  {
    |parts| >= 2 && parts[1] == LastRelation
  }

  /** `.filter(IsLast)[0]`, as the index of the first matching segment. */
  function FirstLast(segs: seq<seq<string>>): (r: Option<nat>)
    ensures r.Some? ==> r.value < |segs| && IsLast(segs[r.value])
    ensures r.Some? ==> forall k :: 0 <= k < r.value ==> !IsLast(segs[k])
    ensures r.None? ==> forall k :: 0 <= k < |segs| ==> !IsLast(segs[k])
  {
    if |segs| == 0 then None
    else if IsLast(segs[0]) then Some(0)
    else
      match FirstLast(segs[1..])
      case None => None
      case Some(k) => Some(k + 1)
  }

  /** The regular expression `/(&|\?)page=(\d+)/` matches at index `i`. */
  predicate PageMatchAt(url: string, i: nat)
  {
    i + 6 < |url|
    && (url[i] == '&' || url[i] == '?')
    && url[i + 1] == 'p' && url[i + 2] == 'a' && url[i + 3] == 'g' && url[i + 4] == 'e' && url[i + 5] == '='
    && IsDigit(url[i + 6])
  }

  /** The regular-expression engine tries the start positions from `k` on. */
  function FirstPageMatchFrom(url: string, k: nat): (r: Option<nat>)
    requires k <= |url|
    ensures r.Some? ==> k <= r.value && PageMatchAt(url, r.value)
    ensures r.Some? ==> forall j: nat :: k <= j < r.value ==> !PageMatchAt(url, j)
    ensures r.None? ==> forall j: nat :: k <= j ==> !PageMatchAt(url, j)
    decreases |url| - k
  {
    if k == |url| then None
    else if PageMatchAt(url, k) then Some(k)
    else FirstPageMatchFrom(url, k + 1)
  }

  /** Group 2 of the leftmost match: the digits of the first `?page=` or
      `&page=` parameter, taken greedily. */
  function PageParameter(url: string): (r: Option<string>)
    ensures r.Some? ==> |r.value| >= 1 && AllDigits(r.value)
    ensures r.None? <==> forall j: nat :: !PageMatchAt(url, j)
    ensures r.Some? ==> exists i: nat :: PageMatchAt(url, i) && r.value == DigitRun(url[i + 6..])
  {
    match FirstPageMatchFrom(url, 0)
    case None => None
    case Some(i) => Some(DigitRun(url[i + 6..]))
  }

  /** `getNumberOfPages(response)` given `response.headers.link`. */
  function GetNumberOfPages(links: Option<string>): (r: Result<nat, PageCountError>)
    ensures r == Err(MissingLinkHeader) <==> links.None?
    ensures r == Err(NoLastRelation) <==>
              links.Some? && forall k :: 0 <= k < |Segments(links.value)| ==> !IsLast(Segments(links.value)[k])
    ensures r.Ok? ==>
              var segs := Segments(links.value);
              exists k :: 0 <= k < |segs| && IsLast(segs[k])
                && PageParameter(segs[k][0]).Some?
                && r.value == DecimalValue(PageParameter(segs[k][0]).value)
    // the first `rel="last"` segment decides: its page digits, or a failure when it has none
    ensures links.Some? ==>
              var segs := Segments(links.value);
              forall k :: 0 <= k < |segs| && IsLast(segs[k]) && (forall j :: 0 <= j < k ==> !IsLast(segs[j])) ==>
                match PageParameter(segs[k][0])
                case None => r == Err(NoPageParameter)
                case Some(d) => r == Ok(DecimalValue(d))
  {
    match links
    case None => Err(MissingLinkHeader)
    case Some(header) =>
      var segs := Segments(header);
      FirstLastUnique(segs);
      match FirstLast(segs)
      case None => Err(NoLastRelation)
      case Some(k) =>
        match PageParameter(segs[k][0])
        case None => Err(NoPageParameter)
        case Some(digits) => Ok(DecimalValue(digits))
  }

  /* ---------------------------------------------------------------- *
   *  The header a paged listing sends                                 *
   * ---------------------------------------------------------------- */

  /** One `<url>; rel="..."` entry of a Link header. */
  datatype LinkEntry = LinkEntry(url: string, rel: string)

  function FormatTarget(e: LinkEntry): string
  {
    "<" + e.url + ">"
  }

  function FormatRelation(e: LinkEntry): string
  {
    "rel=\"" + e.rel + "\""
  }

  function FormatEntry(e: LinkEntry): string
  {
    FormatTarget(e) + ParamSeparator + FormatRelation(e)
  }

  /** The Link header for the given entries, as the listing endpoints send it. */
  function FormatLinkHeader(entries: seq<LinkEntry>): string
  {
    Join(seq(|entries|, k requires 0 <= k < |entries| => FormatEntry(entries[k])), SegmentSeparator)
  }

  /** The URL of one page of a listing with `per_page` set. */
  function PageUrl(base: string, perPage: nat, page: nat): string
  {
    base + "?per_page=" + DecimalString(perPage) + "&page=" + DecimalString(page)
  }

  /** The URL of one page of a listing without `per_page`, as the
      subscription listing sends it. */
  function BarePageUrl(base: string, page: nat): string
  {
    base + "?page=" + DecimalString(page)
  }

  predicate Lacks(s: string, c: char)
  {
    forall i :: 0 <= i < |s| ==> s[i] != c
  }

  /** Neither the URL nor the relation name of an entry contains the
      separators the header is split on. */
  predicate WellFormedEntry(e: LinkEntry)
  {
    Lacks(e.url, ',') && Lacks(e.url, ';') && Lacks(e.rel, ',') && Lacks(e.rel, ';')
  }

  lemma RelationInjective(a: string, b: string)
    requires "rel=\"" + a + "\"" == "rel=\"" + b + "\""
    ensures a == b
  {
    var x := "rel=\"" + a + "\"";
    assert a == x[5..|x| - 1];
    assert b == x[5..|x| - 1];
  }

  /** Only the relation `last` is formatted as `rel="last"`. */
  lemma RelationNotLast(e: LinkEntry)
    requires e.rel != "last"
    ensures FormatRelation(e) != LastRelation
  {
    if FormatRelation(e) == LastRelation {
      RelationInjective(e.rel, "last");
    }
  }

  lemma LacksConcat(a: string, b: string, c: char)
    requires Lacks(a, c) && Lacks(b, c)
    ensures Lacks(a + b, c)
  {
  }

  /** A well-formed entry, once formatted, has no segment separator in it. */
  lemma FormattedEntryLacksComma(e: LinkEntry)
    requires WellFormedEntry(e)
    ensures Lacks(FormatEntry(e), ',')
  {
    LacksConcat("<", e.url, ',');
    LacksConcat("<" + e.url, ">", ',');
    LacksConcat("rel=\"", e.rel, ',');
    LacksConcat("rel=\"" + e.rel, "\"", ',');
    LacksConcat(FormatTarget(e), ParamSeparator, ',');
    LacksConcat(FormatTarget(e) + ParamSeparator, FormatRelation(e), ',');
  }

  /** A well-formed entry splits into its target and its relation. */
  lemma EntryParts(e: LinkEntry)
    requires WellFormedEntry(e)
    ensures Split(FormatEntry(e), ParamSeparator) == [FormatTarget(e), FormatRelation(e)]
  {
    LacksConcat("<", e.url, ';');
    LacksConcat("<" + e.url, ">", ';');
    LacksConcat("rel=\"", e.rel, ';');
    LacksConcat("rel=\"" + e.rel, "\"", ';');
    var parts := [FormatTarget(e), FormatRelation(e)];
    assert Join(parts, ParamSeparator) == FormatEntry(e);
    SplitJoin(parts, ParamSeparator);
  }

  /** Splitting a formatted header recovers each entry's target and relation. */
  lemma SegmentsOfFormattedHeader(entries: seq<LinkEntry>)
    requires |entries| >= 1
    requires forall k :: 0 <= k < |entries| ==> WellFormedEntry(entries[k])
    ensures |Segments(FormatLinkHeader(entries))| == |entries|
    ensures forall k :: 0 <= k < |entries| ==>
              Segments(FormatLinkHeader(entries))[k] == [FormatTarget(entries[k]), FormatRelation(entries[k])]
  {
    var formatted := seq(|entries|, k requires 0 <= k < |entries| => FormatEntry(entries[k]));
    forall k | 0 <= k < |formatted|
      ensures Lacks(formatted[k], ',')
    {
      FormattedEntryLacksComma(entries[k]);
    }
    SplitJoin(formatted, SegmentSeparator);
    forall k | 0 <= k < |entries|
      ensures Split(formatted[k], ParamSeparator) == [FormatTarget(entries[k]), FormatRelation(entries[k])]
    {
      EntryParts(entries[k]);
    }
  }

  predicate NoQueryChars(s: string)
  {
    Lacks(s, '&') && Lacks(s, '?')
  }

  /** Start positions whose character is neither `&` nor `?` never match. */
  lemma NoMatchInPlainText(url: string, x: string, off: nat)
    requires off + |x| <= |url| && url[off..off + |x|] == x
    requires NoQueryChars(x)
    ensures forall j: nat :: off <= j < off + |x| ==> !PageMatchAt(url, j)
  {
    forall j: nat | off <= j < off + |x|
      ensures url[j] != '&' && url[j] != '?'
    {
      assert url[j] == x[j - off];
    }
  }

  /** In `a?c&page=d>` there is a match at the `&`. */
  lemma MatchAtAmpersand(a: string, c: string, d: string)
    requires |d| >= 1 && AllDigits(d)
    ensures PageMatchAt(a + "?" + c + "&page=" + d + ">", |a| + 1 + |c|)
  {
    var url := a + "?" + c + "&page=" + d + ">";
    var m := |a| + 1 + |c|;
    assert url == (a + "?" + c) + "&page=" + d + ">";
    assert url[m] == '&';
    assert url[m + 6] == d[0];
  }

  /** In `a?c&page=d>`, with no `&` or `?` in `a` or `c` and `c` not
      starting with `page=`, nothing before the `&` matches. */
  lemma NoMatchBeforeAmpersand(a: string, c: string, d: string)
    requires NoQueryChars(a) && NoQueryChars(c)
    requires |c| >= 2 && c[1] != 'a'
    ensures forall j: nat :: j < |a| + 1 + |c| ==> !PageMatchAt(a + "?" + c + "&page=" + d + ">", j)
  {
    var url := a + "?" + c + "&page=" + d + ">";
    var m := |a| + 1 + |c|;
    assert url[0..|a|] == a;
    NoMatchInPlainText(url, a, 0);
    assert url[|a| + 1..m] == c;
    NoMatchInPlainText(url, c, |a| + 1);
    assert url[|a| + 2] == c[1];
  }

  /** The first match is the one no earlier start position beats. */
  lemma ParameterAtLeftmostMatch(url: string, m: nat)
    requires PageMatchAt(url, m)
    requires forall j: nat :: j < m ==> !PageMatchAt(url, j)
    ensures PageParameter(url) == Some(DigitRun(url[m + 6..]))
  {
  }

  /** The `per_page=` parameter that precedes the page number is never
      mistaken for it: in `<base?per_page=d1&page=d2>` the page parameter
      read is `d2`. */
  lemma PageParameterAfterPerPage(base: string, d1: string, d2: string)
    requires NoQueryChars(base) && AllDigits(d1)
    requires |d2| >= 1 && AllDigits(d2)
    ensures PageParameter("<" + (base + "?per_page=" + d1 + "&page=" + d2) + ">") == Some(d2)
  {
    var a := "<" + base;
    var c := "per_page=" + d1;
    LacksConcat("<", base, '&');
    LacksConcat("<", base, '?');
    assert NoQueryChars("per_page=");
    LacksConcat("per_page=", d1, '&');
    LacksConcat("per_page=", d1, '?');
    assert a + "?" + c + "&page=" + d2 + ">" == "<" + (base + "?per_page=" + d1 + "&page=" + d2) + ">";
    PageParameterAfterQuery(a, c, d2);
  }

  /** In `a?c&page=d>`, where `a` and `c` hold no query separators and `c`
      cannot start a `page=` match, the page parameter is `d`. */
  lemma PageParameterAfterQuery(a: string, c: string, d: string)
    requires NoQueryChars(a) && NoQueryChars(c)
    requires |c| >= 2 && c[1] != 'a'
    requires |d| >= 1 && AllDigits(d)
    ensures PageParameter(a + "?" + c + "&page=" + d + ">") == Some(d)
  {
    var url := a + "?" + c + "&page=" + d + ">";
    var m := |a| + 1 + |c|;
    MatchAtAmpersand(a, c, d);
    NoMatchBeforeAmpersand(a, c, d);
    ParameterAtLeftmostMatch(url, m);
    assert url[m + 6..] == d + ">";
    DigitRunStops(d, ">");
  }


  /** The page parameter of a listing's page URL is the page number. */
  lemma PageParameterOfPageUrl(base: string, perPage: nat, page: nat)
    requires NoQueryChars(base)
    ensures PageParameter("<" + PageUrl(base, perPage, page) + ">") == Some(DecimalString(page))
  {
    var d1 := DecimalString(perPage);
    var d2 := DecimalString(page);
    assert PageUrl(base, perPage, page) == base + "?per_page=" + d1 + "&page=" + d2;
    PageParameterAfterPerPage(base, d1, d2);
  }

  /** In `a?page=d>` there is a match at the `?`. */
  lemma MatchAtQuestionMark(a: string, d: string)
    requires |d| >= 1 && AllDigits(d)
    ensures PageMatchAt(a + "?page=" + d + ">", |a|)
  {
    var url := a + "?page=" + d + ">";
    assert url[|a|] == '?';
    assert url[|a| + 6] == d[0];
  }

  /** In `a?page=d>`, where `a` holds no query separators, the page
      parameter is `d`. */
  lemma PageParameterAfterPlain(a: string, d: string)
    requires NoQueryChars(a)
    requires |d| >= 1 && AllDigits(d)
    ensures PageParameter(a + "?page=" + d + ">") == Some(d)
  {
    var url := a + "?page=" + d + ">";
    var m := |a|;
    assert url[0..|a|] == a;
    NoMatchInPlainText(url, a, 0);
    MatchAtQuestionMark(a, d);
    ParameterAtLeftmostMatch(url, m);
    assert url[m + 6..] == d + ">";
    DigitRunStops(d, ">");
  }

  /** The page parameter of a page URL without `per_page` is the page
      number: the match is at the `?` itself. */
  lemma PageParameterOfBarePageUrl(base: string, page: nat)
    requires NoQueryChars(base)
    ensures PageParameter("<" + BarePageUrl(base, page) + ">") == Some(DecimalString(page))
  {
    var a := "<" + base;
    var d := DecimalString(page);
    LacksConcat("<", base, '&');
    LacksConcat("<", base, '?');
    assert a + "?page=" + d + ">" == "<" + BarePageUrl(base, page) + ">";
    PageParameterAfterPlain(a, d);
  }

  /** The first segment with rel="last" is the first entry whose relation is `last`. */
  lemma FirstLastOfFormattedHeader(entries: seq<LinkEntry>, k: nat)
    requires k < |entries|
    requires forall j :: 0 <= j < |entries| ==> WellFormedEntry(entries[j])
    requires forall j :: 0 <= j < k ==> entries[j].rel != "last"
    requires entries[k].rel == "last"
    ensures FirstLast(Segments(FormatLinkHeader(entries))) == Some(k)
    ensures Segments(FormatLinkHeader(entries))[k][0] == FormatTarget(entries[k])
  {
    SegmentsOfFormattedHeader(entries);
    FirstLastOfShapes(Segments(FormatLinkHeader(entries)), entries, k);
  }

  /** The same over any segments shaped like formatted entries. */
  lemma FirstLastOfShapes(segs: seq<seq<string>>, entries: seq<LinkEntry>, k: nat)
    requires |segs| == |entries| && k < |entries|
    requires forall j :: 0 <= j < |entries| ==> segs[j] == [FormatTarget(entries[j]), FormatRelation(entries[j])]
    requires forall j :: 0 <= j < k ==> entries[j].rel != "last"
    requires entries[k].rel == "last"
    ensures FirstLast(segs) == Some(k)
  {
    forall j | 0 <= j < k
      ensures !IsLast(segs[j])
    {
      assert segs[j][1] == FormatRelation(entries[j]);
      RelationNotLast(entries[j]);
    }
    assert segs[k][1] == FormatRelation(entries[k]);
    FirstLastIs(segs, k);
  }

  /** Only one index is the first `rel="last"` one, so `FirstLast` finds it. */
  lemma FirstLastUnique(segs: seq<seq<string>>)
    ensures forall k :: 0 <= k < |segs| && IsLast(segs[k]) && (forall j :: 0 <= j < k ==> !IsLast(segs[j])) ==>
              FirstLast(segs) == Some(k)
  {
    forall k | 0 <= k < |segs| && IsLast(segs[k]) && (forall j :: 0 <= j < k ==> !IsLast(segs[j]))
      ensures FirstLast(segs) == Some(k)
    {
      FirstLastIs(segs, k);
    }
  }

  lemma FirstLastIs(segs: seq<seq<string>>, k: nat)
    requires k < |segs| && IsLast(segs[k])
    requires forall j :: 0 <= j < k ==> !IsLast(segs[j])
    ensures FirstLast(segs) == Some(k)
  {
  }

  /** The round trip the paged fetch depends on: a header whose first
      `last` entry points at page `n` is read as `n` pages. */
  lemma PageCountOfFormattedHeader(entries: seq<LinkEntry>, k: nat, base: string, perPage: nat, n: nat)
    requires k < |entries|
    requires forall j :: 0 <= j < |entries| ==> WellFormedEntry(entries[j])
    requires forall j :: 0 <= j < k ==> entries[j].rel != "last"
    requires entries[k] == LinkEntry(PageUrl(base, perPage, n), "last")
    requires NoQueryChars(base)
    ensures GetNumberOfPages(Some(FormatLinkHeader(entries))) == Ok(n)
  {
    FirstLastOfFormattedHeader(entries, k);
    PageParameterOfPageUrl(base, perPage, n);
    DecimalRoundTrip(n);
  }

  /** The same round trip for the subscription listing, whose `last` entry
      carries no `per_page`. */
  lemma PageCountOfBareHeader(entries: seq<LinkEntry>, k: nat, base: string, n: nat)
    requires k < |entries|
    requires forall j :: 0 <= j < |entries| ==> WellFormedEntry(entries[j])
    requires forall j :: 0 <= j < k ==> entries[j].rel != "last"
    requires entries[k] == LinkEntry(BarePageUrl(base, n), "last")
    requires NoQueryChars(base)
    ensures GetNumberOfPages(Some(FormatLinkHeader(entries))) == Ok(n)
  {
    FirstLastOfFormattedHeader(entries, k);
    PageParameterOfBarePageUrl(base, n);
    DecimalRoundTrip(n);
  }

  /** A header with no `last` entry (as on the last page itself) makes the
      call throw. */
  lemma NoLastEntry(entries: seq<LinkEntry>)
    requires |entries| >= 1
    requires forall j :: 0 <= j < |entries| ==> WellFormedEntry(entries[j])
    requires forall j :: 0 <= j < |entries| ==> entries[j].rel != "last"
    ensures GetNumberOfPages(Some(FormatLinkHeader(entries))) == Err(NoLastRelation)
  {
    SegmentsOfFormattedHeader(entries);
    NoLastInShapes(Segments(FormatLinkHeader(entries)), entries);
  }

  /** No segment shaped like a formatted non-`last` entry is `last`. */
  lemma NoLastInShapes(segs: seq<seq<string>>, entries: seq<LinkEntry>)
    requires |segs| == |entries|
    requires forall j :: 0 <= j < |entries| ==> segs[j] == [FormatTarget(entries[j]), FormatRelation(entries[j])]
    requires forall j :: 0 <= j < |entries| ==> entries[j].rel != "last"
    ensures forall j :: 0 <= j < |segs| ==> !IsLast(segs[j])
  {
    forall j | 0 <= j < |segs|
      ensures !IsLast(segs[j])
    {
      assert segs[j][1] == FormatRelation(entries[j]);
      RelationNotLast(entries[j]);
    }
  }
}

=== FILE: mutations.dfy ===
/** `addSubscription(s)` and `removeSubscription(s)`
    (lib/commands/query.js:164-191): one subscription call per repository,
    sent one at a time in list order, the first rejection ending the batch.
    The API is a parameter: whether each call resolves or rejects. */
module Mutations {
  import opened Outcomes
  import opened Strings

  /** The organisation every call addresses. */
  const Owner := "exercism"

  datatype Action =
    | Subscribe     // `activity.setRepoSubscription({ ..., subscribed: true })`
    | Unsubscribe   // `activity.deleteRepoSubscription(...)`

  /** The parameters of one subscription call. */
  datatype Call = Call(action: Action, owner: string, repo: string)

  /** Whether a call resolves (`true`) or rejects (`false`). */
  type Api = Call -> bool

  /** `repo.substring(repo.indexOf('/') + 1)`: what follows the first `/`,
      or the whole name when there is none (`indexOf` gives -1, so the
      substring starts at 0). */
  function RepoSegment(name: string): string
  {
    match IndexOf(name, "/")
    case None => name
    case Some(i) => name[i + 1..]
  }

  /** A name without `/` is sent whole. */
  lemma RepoSegmentWithoutSlash(name: string)
    requires forall i :: 0 <= i < |name| ==> name[i] != '/'
    ensures RepoSegment(name) == name
  {
    MissingFirstChar(name, "/");
  }

  /** Otherwise what is sent is everything after the first `/`. */
  lemma RepoSegmentAfterFirstSlash(name: string, i: nat)
    requires i < |name| && name[i] == '/'
    requires forall j :: 0 <= j < i ==> name[j] != '/'
    ensures RepoSegment(name) == name[i + 1..]
  {
    var owner, repo := name[..i], name[i + 1..];
    assert name == owner + "/" + repo;
    FirstOccurrenceAfter(owner, "/", repo);
  }

  /** A full name `owner/repo` with a slash-free owner yields `repo`, even
      when `repo` itself holds a slash. */
  lemma RepoSegmentOfFullName(owner: string, repo: string)
    requires forall i :: 0 <= i < |owner| ==> owner[i] != '/'
    ensures RepoSegment(owner + "/" + repo) == repo
  {
    FirstOccurrenceAfter(owner, "/", repo);
    assert (owner + "/" + repo)[|owner| + 1..] == repo;
  }

  /** The call `addSubscription` or `removeSubscription` makes for a name. */
  function MakeCall(action: Action, name: string): Call
  {
    Call(action, Owner, RepoSegment(name))
  }

  /** The calls a batch would make if none failed, in list order. */
  function Calls(action: Action, names: seq<string>): (r: seq<Call>)
    ensures |r| == |names|
    ensures forall k :: 0 <= k < |r| ==> r[k].action == action && r[k].owner == Owner
  {
    seq(|names|, k requires 0 <= k < |names| => MakeCall(action, names[k]))
  }

  /** What a batch did: the calls it sent, and whether it rejected. */
  datatype BatchResult = BatchResult(issued: seq<Call>, failed: bool)

  /** Sending `calls` one at a time, stopping at the first rejection. */
  function Batch(calls: seq<Call>, api: Api): (r: BatchResult)
    ensures |r.issued| <= |calls| && r.issued == calls[..|r.issued|]
    ensures r.failed ==> |r.issued| > 0
    ensures !r.failed ==> r.issued == calls
  {
    if |calls| == 0 then BatchResult([], false)
    else if !api(calls[0]) then BatchResult([calls[0]], true)
    else
      var rest := Batch(calls[1..], api);
      assert calls == [calls[0]] + calls[1..];
      BatchResult([calls[0]] + rest.issued, rest.failed)
  }

  /** Every call sent before the last was accepted; the last was rejected
      exactly when the batch failed. */
  lemma {:induction false} BatchAccepted(calls: seq<Call>, api: Api)
    ensures var b := Batch(calls, api);
            && (forall k :: 0 <= k < |b.issued| - 1 ==> api(b.issued[k]))
            && (b.failed <==> |b.issued| > 0 && !api(b.issued[|b.issued| - 1]))
    decreases |calls|
  {
    if |calls| > 0 && api(calls[0]) {
      BatchAccepted(calls[1..], api);
    }
  }

  /** The calls `cs`, already made and successful, followed by a batch. */
  function After(cs: seq<Call>, b: BatchResult): BatchResult
  {
    BatchResult(cs + b.issued, b.failed)
  }

  /** One accepted call moves the batch on to the next. */
  lemma BatchAdvance(calls: seq<Call>, api: Api, issued: seq<Call>, index: nat)
    requires index < |calls| && api(calls[index])
    requires Batch(calls, api) == After(issued, Batch(calls[index..], api))
    ensures Batch(calls, api) == After(issued + [calls[index]], Batch(calls[index + 1..], api))
  {
    assert calls[index..][1..] == calls[index + 1..];
  }

  /** A rejected call ends the batch with it. */
  lemma BatchStop(calls: seq<Call>, api: Api, issued: seq<Call>, index: nat)
    requires index < |calls| && !api(calls[index])
    requires Batch(calls, api) == After(issued, Batch(calls[index..], api))
    ensures Batch(calls, api) == BatchResult(issued + [calls[index]], true)
  {
  }

  /** Sending two lists back to back is sending their concatenation: the
      second list is reached only when the first went through. */
  lemma {:induction false} BatchAppend(a: seq<Call>, b: seq<Call>, api: Api)
    ensures Batch(a + b, api) == if Batch(a, api).failed then Batch(a, api) else After(a, Batch(b, api))
    decreases |a|
  {
    if |a| == 0 {
      assert a + b == b;
    } else {
      assert (a + b)[1..] == a[1..] + b;
      if api(a[0]) {
        BatchAppend(a[1..], b, api);
      }
    }
  }

  /** The loop shared by `addSubscriptions` and `removeSubscriptions`:
      one call per name, in list order, ending at the first rejection. */
  method RunBatch(action: Action, names: seq<string>, api: Api) returns (issued: seq<Call>, failed: bool)
    ensures BatchResult(issued, failed) == Batch(Calls(action, names), api)
  {
    var calls := Calls(action, names);
    issued := [];
    var index := 0;
    while index < |names|
      invariant 0 <= index <= |names|
      invariant |issued| == index
      invariant Batch(calls, api) == After(issued, Batch(calls[index..], api))
    {
      if !api(calls[index]) {
        BatchStop(calls, api, issued, index);
        issued, failed := issued + [calls[index]], true;
        return;
      }
      BatchAdvance(calls, api, issued, index);
      issued := issued + [calls[index]];
      index := index + 1;
    }
    assert calls[index..] == [];
    failed := false;
  }

  /** `addSubscriptions(octokit, repos)`. */
  method AddSubscriptions(names: seq<string>, api: Api) returns (issued: seq<Call>, failed: bool)
    ensures BatchResult(issued, failed) == Batch(Calls(Subscribe, names), api)
    ensures forall k :: 0 <= k < |issued| ==> issued[k] == Call(Subscribe, Owner, RepoSegment(names[k]))
  {
    issued, failed := RunBatch(Subscribe, names, api);
  }

  /** `removeSubscriptions(octokit, repos)`. */
  method RemoveSubscriptions(names: seq<string>, api: Api) returns (issued: seq<Call>, failed: bool)
    ensures BatchResult(issued, failed) == Batch(Calls(Unsubscribe, names), api)
    ensures forall k :: 0 <= k < |issued| ==> issued[k] == Call(Unsubscribe, Owner, RepoSegment(names[k]))
  {
    issued, failed := RunBatch(Unsubscribe, names, api);
  }

  /** The calls that took effect: everything sent, less a final rejected call. */
  function Applied(b: BatchResult): (r: seq<Call>)
    requires b.failed ==> |b.issued| > 0
  {
    if b.failed then b.issued[..|b.issued| - 1] else b.issued
  }

  /** A batch applies the longest prefix of its calls that all succeed. */
  lemma AppliedIsLongestSuccessfulPrefix(calls: seq<Call>, api: Api)
    ensures var b := Batch(calls, api);
            var applied := Applied(b);
            && applied == calls[..|applied|]
            && (forall k :: 0 <= k < |applied| ==> api(applied[k]))
            && (|applied| == |calls| || !api(calls[|applied|]))
  {
    BatchAccepted(calls, api);
  }
}

=== FILE: outcomes.dfy ===
/** Failure-carrying values used throughout the model in place of the
    JavaScript `undefined`, `-1` sentinels and thrown errors. */
module Outcomes {

  /** An optional value: `None` stands for JavaScript's `undefined`/`null`
      or the `-1` that `indexOf` returns when nothing is found. */
  datatype Option<+T> = None | Some(value: T)

  /** The result of an operation that may throw: `Err` carries what was thrown. */
  datatype Result<+T, +E> = Ok(value: T) | Err(error: E)
}

=== FILE: paging.dfy ===
/** `getAllPages` (lib/commands/query.js:151-162): fetching every page of a
    paged listing, one request at a time, in page order. The HTTP client is
    a parameter: a total function from the request sent to what it resolves
    to or rejects with. */
module Paging {
  import opened Outcomes
  import opened LinkHeader

  /** One entry of a listing's payload; only `full_name` is read. */
  datatype Repository = Repository(fullName: string)

  /** What `octokit.request` resolves to: the `link` header (absent when
      the server sends none) and the payload. */
  datatype Response = Response(link: Option<string>, data: seq<Repository>)

  /** A request: the route, the caller's parameters and the `page`
      parameter the fetch loop sets. Each request is its own value, so
      setting the page of one does not alter another. */
  datatype Request = Request(route: string, params: map<string, string>, page: Option<nat>)

  /** An HTTP-layer failure (authorisation, rate limit, network, 4xx/5xx). */
  datatype ApiError = ApiError(status: int)

  /** Why fetching a listing rejects. */
  datatype FetchError =
    | RequestFailed(request: Request, cause: ApiError)
    | BadPagination(reason: PageCountError)

  /** `octokit.request`, as seen from the model. */
  type Client = Request -> Result<Response, ApiError>

  /** `reqParams.page = k` followed by a request with those parameters. */
  function WithPage(first: Request, k: nat): Request
  {
    first.(page := Some(k))
  }

  /** The number of pages `getAllPages` goes on to fetch: the last page
      number read from the first response. */
  function LastPage(client: Client, first: Request): Result<nat, FetchError>
  {
    match client(first)
    case Err(e) => Err(RequestFailed(first, e))
    case Ok(response) =>
      match GetNumberOfPages(response.link)
      case Err(e) => Err(BadPagination(e))
      case Ok(n) => Ok(n)
  }

  function Max(a: int, b: int): int
  {
    if a < b then b else a
  }

  /** The requests of a listing with `n` pages: the caller's own request,
      then one per page 2..n. */
  function PageRequests(first: Request, n: nat): (r: seq<Request>)
    ensures |r| == Max(1, n) && r[0] == first
    ensures forall k :: 1 <= k < |r| ==> r[k] == WithPage(first, k + 1)
  {
    [first] + seq(Max(1, n) - 1, k requires 0 <= k < Max(1, n) - 1 => WithPage(first, k + 2))
  }

  /** The first page among `from..n` whose request fails, if any. */
  function FirstFailedPage(client: Client, first: Request, from: nat, n: nat): (r: Option<nat>)
    ensures r.Some? ==> from <= r.value <= n && client(WithPage(first, r.value)).Err?
    ensures r.Some? ==> forall k :: from <= k < r.value ==> client(WithPage(first, k)).Ok?
    ensures r.None? ==> forall k :: from <= k <= n ==> client(WithPage(first, k)).Ok?
    decreases n + 1 - from
  {
    if from > n then None
    else if client(WithPage(first, from)).Err? then Some(from)
    else FirstFailedPage(client, first, from + 1, n)
  }

  /** The responses to requests that all succeeded. */
  function Payloads(client: Client, sent: seq<Request>): seq<Response>
    requires forall k :: 0 <= k < |sent| ==> client(sent[k]).Ok?
  {
    seq(|sent|, k requires 0 <= k < |sent| => client(sent[k]).value)
  }

  /** Responses matched one to one with their requests are their payloads. */
  lemma PayloadsOfResponses(client: Client, sent: seq<Request>, responses: seq<Response>)
    requires |responses| == |sent| && forall k :: 0 <= k < |sent| ==> client(sent[k]) == Ok(responses[k])
    ensures forall k :: 0 <= k < |sent| ==> client(sent[k]).Ok?
    ensures responses == Payloads(client, sent)
  {
  }

  /** The requests a paged fetch sends, stated without its loop: the first
      one, then pages 2.. up to the last page, or up to the first page whose
      request fails. */
  function FetchRequests(client: Client, first: Request): seq<Request>
  {
    match LastPage(client, first)
    case Err(_) => [first]
    case Ok(n) =>
      match FirstFailedPage(client, first, 2, n)
      case None => PageRequests(first, n)
      case Some(k) => PageRequests(first, k)
  }

  /** What a paged fetch resolves to or rejects with, stated without its loop. */
  function FetchAll(client: Client, first: Request): Result<seq<Response>, FetchError>
  {
    match LastPage(client, first)
    case Err(e) => Err(e)
    case Ok(n) =>
      match FirstFailedPage(client, first, 2, n)
      case Some(k) => Err(RequestFailed(WithPage(first, k), client(WithPage(first, k)).error))
      case None =>
        PageRequestsSucceed(client, first, n);
        Ok(Payloads(client, PageRequests(first, n)))
  }

  /** When the first request and pages 2..n all succeed, so does every
      request of the listing. */
  lemma PageRequestsSucceed(client: Client, first: Request, n: nat)
    requires client(first).Ok?
    requires forall k :: 2 <= k <= n ==> client(WithPage(first, k)).Ok?
    ensures forall k :: 0 <= k < |PageRequests(first, n)| ==> client(PageRequests(first, n)[k]).Ok?
  {
    var reqs := PageRequests(first, n);
    forall k | 0 <= k < |reqs|
      ensures client(reqs[k]).Ok?
    {
      if k > 0 {
        assert reqs[k] == WithPage(first, k + 1);
      }
    }
  }

  /** A fetch always starts with the caller's request, and a successful one
      holds the response to every request it sent, in order. */
  lemma FetchedRequestsSucceed(client: Client, first: Request)
    ensures |FetchRequests(client, first)| >= 1 && FetchRequests(client, first)[0] == first
    ensures FetchAll(client, first).Ok? ==>
              forall k :: 0 <= k < |FetchRequests(client, first)| ==> client(FetchRequests(client, first)[k]).Ok?
    ensures FetchAll(client, first).Ok? ==> FetchAll(client, first).value == Payloads(client, FetchRequests(client, first))
  {
    match LastPage(client, first)
    case Err(_) =>
    case Ok(n) =>
      if FirstFailedPage(client, first, 2, n).None? {
        PageRequestsSucceed(client, first, n);
      }
  }

  /** `getAllPages(octokit, reqPath, reqParams)`. `sent` lists the requests
      in the order they are issued; `r` is the page list or what the call
      rejects with. */
  method GetAllPages(client: Client, first: Request) returns (sent: seq<Request>, r: Result<seq<Response>, FetchError>)
    // the first request carries the caller's parameters; request k+1 asks for page k+1
    ensures |sent| >= 1 && sent[0] == first
    ensures forall k :: 1 <= k < |sent| ==> sent[k] == WithPage(first, k + 1)
    // every request but the last one sent succeeded
    ensures forall k :: 0 <= k < |sent| - 1 ==> client(sent[k]).Ok?
    // a successful fetch holds one response per request, in request order, max(1, L) of them
    ensures r.Ok? ==> |r.value| == |sent| && forall k :: 0 <= k < |sent| ==> client(sent[k]) == Ok(r.value[k])
    ensures r.Ok? ==> LastPage(client, first).Ok? && |sent| == Max(1, LastPage(client, first).value)
    // an unreadable first response stops the fetch after one request
    ensures LastPage(client, first).Err? ==> r == Err(LastPage(client, first).error) && |sent| == 1
    // a failed page request is the last one sent, and nothing after it is requested
    ensures r.Err? && r.error.RequestFailed? ==>
              r.error.request == sent[|sent| - 1] && client(sent[|sent| - 1]) == Err(r.error.cause)
    // a page that fails after a readable first response is reported as that request's failure
    ensures LastPage(client, first).Ok? && r.Err? ==> r.error.RequestFailed?
    // the fetch succeeds whenever every page it needs can be fetched
    ensures LastPage(client, first).Ok? &&
            (forall k :: 2 <= k <= LastPage(client, first).value ==> client(WithPage(first, k)).Ok?)
            ==> r.Ok?
    // in all: the pages up to the first failing one are requested, and the outcome is the reference one
    ensures sent == FetchRequests(client, first) && r == FetchAll(client, first)
  {
    var last := LastPage(client, first);
    if last.Err? {
      return [first], Err(last.error);
    }
    sent, r := FetchPages(client, first, last.value);
  }

  /** The loop of `getAllPages` once the last page number `n` is known. */
  method FetchPages(client: Client, first: Request, n: nat) returns (sent: seq<Request>, r: Result<seq<Response>, FetchError>)
    requires client(first).Ok?
    ensures |sent| >= 1 && sent[0] == first
    ensures forall k :: 1 <= k < |sent| ==> sent[k] == WithPage(first, k + 1)
    ensures forall k :: 0 <= k < |sent| - 1 ==> client(sent[k]).Ok?
    ensures r.Ok? ==> |r.value| == |sent| == Max(1, n) && forall k :: 0 <= k < |sent| ==> client(sent[k]) == Ok(r.value[k])
    ensures r.Err? ==> r.error.RequestFailed? && r.error.request == sent[|sent| - 1]
                       && client(sent[|sent| - 1]) == Err(r.error.cause)
    ensures (forall k :: 2 <= k <= n ==> client(WithPage(first, k)).Ok?) ==> r.Ok?
    ensures match FirstFailedPage(client, first, 2, n)
            case None => sent == PageRequests(first, n) && r == Ok(Payloads(client, PageRequests(first, n)))
            case Some(k) => sent == PageRequests(first, k)
                            && r == Err(RequestFailed(WithPage(first, k), client(WithPage(first, k)).error))
  {
    sent := [first];
    var pages := [client(first).value];
    var i := 2;
    while i <= n
      invariant 2 <= i <= Max(2, n + 1)
      invariant |pages| == |sent| == i - 1
      invariant sent[0] == first
      invariant forall k :: 1 <= k < |sent| ==> sent[k] == WithPage(first, k + 1)
      invariant forall k :: 0 <= k < |sent| ==> client(sent[k]) == Ok(pages[k])
      invariant sent == PageRequests(first, i - 1)
      invariant FirstFailedPage(client, first, 2, n) == FirstFailedPage(client, first, i, n)
    {
      var request := WithPage(first, i);
      NextPageRequests(first, i - 1);
      sent := sent + [request];
      var response := client(request);
      if response.Err? {
        return sent, Err(RequestFailed(request, response.error));
      }
      pages := pages + [response.value];
      i := i + 1;
    }
    if n == 0 {
      assert PageRequests(first, 0) == PageRequests(first, 1);
    }
    PayloadsOfResponses(client, sent, pages);
    return sent, Ok(pages);
  }

  /** One more page appends one request. */
  lemma NextPageRequests(first: Request, n: nat)
    requires n >= 1
    ensures PageRequests(first, n) + [WithPage(first, n + 1)] == PageRequests(first, n + 1)
  {
  }

  /** The page each request asks for; a request without a page parameter
      gets the first page. */
  function PageNumber(request: Request): nat
  {
    match request.page
    case None => 1
    case Some(p) => p
  }

  /** Pages are requested in strictly ascending order. */
  lemma AscendingPages(first: Request, sent: seq<Request>)
    requires first.page.None?
    requires |sent| >= 1 && sent[0] == first
    requires forall k :: 1 <= k < |sent| ==> sent[k] == WithPage(first, k + 1)
    ensures forall i, j :: 0 <= i < j < |sent| ==> PageNumber(sent[i]) < PageNumber(sent[j])
  {
    forall i, j | 0 <= i < j < |sent|
      ensures PageNumber(sent[i]) < PageNumber(sent[j])
    {
      assert PageNumber(sent[j]) == j + 1;
      assert PageNumber(sent[i]) == i + 1;
    }
  }
}

=== FILE: planning.dfy ===
/** The reconciliation plan of the query command (lib/commands/query.js:26-40,
    66-79, 108-115): tagging the organisation's repositories with their watch
    status, the pre-checked default selection, and the lists of
    subscriptions to add and to remove. */
module Planning {
  import opened Sequences

  /** `{ repo, isWatched }`, one per organisation repository. */
  datatype WatchStatus = WatchStatus(repo: string, isWatched: bool)

  /** `new Set(list)`. */
  function ToSet(s: seq<string>): set<string>
  {
    set x | x in s
  }

  /** `addWatchedStatus(repos, userSubscriptions)`. */
  function AddWatchedStatus(repos: seq<string>, subscriptions: set<string>): (r: seq<WatchStatus>)
    ensures |r| == |repos|
    ensures forall i :: 0 <= i < |r| ==> r[i].repo == repos[i] && (r[i].isWatched <==> repos[i] in subscriptions)
  {
    seq(|repos|, i requires 0 <= i < |repos| => WatchStatus(repos[i], repos[i] in subscriptions))
  }

  /** `.map(({ repo }) => repo)`. */
  function Repos(entries: seq<WatchStatus>): (r: seq<string>)
    ensures |r| == |entries|
  {
    if |entries| == 0 then [] else [entries[0].repo] + Repos(entries[1..])
  }

  /** The `default` of `repoSelectQuestion`: the repositories of the
      watched entries. */
  function DefaultSelection(watched: seq<WatchStatus>): seq<string>
  {
    Repos(Filter(watched, (e: WatchStatus) => e.isWatched))
  }

  /** `subscriptionsToAdd`: the selected repositories not subscribed to. */
  function ToAdd(selected: seq<string>, subscriptions: set<string>): seq<string>
  {
    Filter(selected, (x: string) => x !in subscriptions)
  }

  /** `subscriptionsToRemove`: the watched entries that were not selected. */
  function ToRemove(watched: seq<WatchStatus>, chosen: set<string>): seq<string>
  {
    Repos(Filter(watched, (e: WatchStatus) => if e.isWatched then e.repo !in chosen else false))
  }

  /** The two operation lists the handler computes. */
  datatype Plan = Plan(toAdd: seq<string>, toRemove: seq<string>)

  /** Lines 26-40 of the handler: `orgRepos` and `userSubscriptions` as
      fetched, `selected` as the checkbox prompt answered. */
  function MakePlan(orgRepos: seq<string>, subscriptions: seq<string>, selected: seq<string>): (p: Plan)
    // toAdd: the selected repositories not yet subscribed, in selection order
    ensures forall x :: x in p.toAdd <==> x in selected && x !in subscriptions
    ensures IsSubsequence(p.toAdd, selected)
    // toRemove: the watched organisation repositories left unselected, in list order
    ensures forall x :: x in p.toRemove <==> x in orgRepos && x in subscriptions && x !in selected
    ensures IsSubsequence(p.toRemove, orgRepos)
    // the lists never overlap
    ensures forall x :: x in p.toAdd ==> x !in p.toRemove
  {
    var subscribed := ToSet(subscriptions);
    var watched := AddWatchedStatus(orgRepos, subscribed);
    var chosen := ToSet(selected);
    WatchedFilter(orgRepos, subscribed, chosen);
    FilterSubsequence(selected, (x: string) => x !in subscribed);
    FilterSubsequence(orgRepos, (x: string) => x in subscribed && x !in chosen);
    Plan(ToAdd(selected, subscribed), ToRemove(watched, chosen))
  }

  lemma ReposCons(e: WatchStatus, rest: seq<WatchStatus>)
    ensures Repos([e] + rest) == [e.repo] + Repos(rest)
  {
    assert ([e] + rest)[1..] == rest;
  }

  lemma TaggedTail(repos: seq<string>, subscriptions: set<string>)
    requires |repos| > 0
    ensures AddWatchedStatus(repos, subscriptions) ==
            [WatchStatus(repos[0], repos[0] in subscriptions)] + AddWatchedStatus(repos[1..], subscriptions)
  {
  }

  /** `toRemove` is the organisation list filtered to the subscribed,
      unselected repositories. */
  lemma {:induction false} WatchedFilter(repos: seq<string>, subscriptions: set<string>, chosen: set<string>)
    ensures ToRemove(AddWatchedStatus(repos, subscriptions), chosen) ==
            Filter(repos, (x: string) => x in subscriptions && x !in chosen)
    decreases |repos|
  {
    if |repos| > 0 {
      var entries := AddWatchedStatus(repos, subscriptions);
      TaggedTail(repos, subscriptions);
      assert entries[1..] == AddWatchedStatus(repos[1..], subscriptions);
      WatchedFilter(repos[1..], subscriptions, chosen);
      var keep := (e: WatchStatus) => if e.isWatched then e.repo !in chosen else false;
      var rest := Filter(entries[1..], keep);
      if keep(entries[0]) {
        ReposCons(entries[0], rest);
      }
    }
  }

  /** The pre-checked default is exactly the watched organisation
      repositories, in organisation-list order. */
  lemma {:induction false} DefaultIsWatchedRepos(repos: seq<string>, subscriptions: set<string>)
    ensures DefaultSelection(AddWatchedStatus(repos, subscriptions)) ==
            Filter(repos, (x: string) => x in subscriptions)
    decreases |repos|
  {
    if |repos| > 0 {
      var entries := AddWatchedStatus(repos, subscriptions);
      TaggedTail(repos, subscriptions);
      assert entries[1..] == AddWatchedStatus(repos[1..], subscriptions);
      DefaultIsWatchedRepos(repos[1..], subscriptions);
      var rest := Filter(entries[1..], (e: WatchStatus) => e.isWatched);
      if entries[0].isWatched {
        ReposCons(entries[0], rest);
      }
    }
  }

  /** Leaving the pre-checked default untouched plans nothing. */
  lemma DefaultPlansNothing(orgRepos: seq<string>, subscriptions: seq<string>)
    ensures var selected := DefaultSelection(AddWatchedStatus(orgRepos, ToSet(subscriptions)));
            MakePlan(orgRepos, subscriptions, selected) == Plan([], [])
  {
    var selected := DefaultSelection(AddWatchedStatus(orgRepos, ToSet(subscriptions)));
    DefaultIsWatchedRepos(orgRepos, ToSet(subscriptions));
    var p := MakePlan(orgRepos, subscriptions, selected);
    NoMembersEmpty(p.toAdd);
    NoMembersEmpty(p.toRemove);
  }

  /** Applying the whole plan reconciles: on the organisation's
      repositories the subscriptions become the selection, and outside it
      nothing changes. */
  lemma PlanReconciles(orgRepos: seq<string>, subscriptions: seq<string>, selected: seq<string>)
    requires forall x :: x in selected ==> x in orgRepos
    ensures var p := MakePlan(orgRepos, subscriptions, selected);
            var after := (ToSet(subscriptions) + ToSet(p.toAdd)) - ToSet(p.toRemove);
            after * ToSet(orgRepos) == ToSet(selected)
            && after - ToSet(orgRepos) == ToSet(subscriptions) - ToSet(orgRepos)
  {
  }

  /** Three organisation repositories a, b and c, of which a and b are
      watched; the user selects b and c, so c is added and a removed. */
  lemma ExamplePlan()
    ensures MakePlan(["exercism/a", "exercism/b", "exercism/c"], ["exercism/a", "exercism/b"],
                     ["exercism/b", "exercism/c"])
            == Plan(["exercism/c"], ["exercism/a"])
  {
  }
}

=== FILE: query.dfy ===
/** The query command's handler (lib/commands/query.js:13-62, 81-106): fetch
    the organisation's repositories and the user's subscriptions, let the
    user pick, confirm the two change lists, then subscribe and unsubscribe.
    The prompts are parameters: `Selector` answers the checkbox, `User`
    answers whichever confirmations are shown. */
module Query {
  import opened Outcomes
  import opened Paging
  import opened Repositories
  import opened Planning
  import opened Mutations
  import Strings

  /** The two confirmation questions of `repoSubscriptionConfirm`. */
  datatype Prompt = ConfirmAdd | ConfirmRemove

  /** What the user would answer to each confirmation, were it shown. */
  type User = Prompt -> bool

  /** The checkbox prompt: given the choices and the pre-checked default,
      the repositories the user leaves checked. */
  type Selector = (seq<string>, seq<string>) -> seq<string>

  /** The `when` guards: a confirmation is shown only for a non-empty list. */
  function Asked(plan: Plan): set<Prompt>
  {
    (if |plan.toAdd| > 0 then {ConfirmAdd} else {}) + (if |plan.toRemove| > 0 then {ConfirmRemove} else {})
  }

  /** `inquirer.prompt(...)`: an answer for each question shown, none for
      the questions skipped. */
  function Responses(plan: Plan, user: User): map<Prompt, bool>
  {
    map p | p in Asked(plan) :: user(p)
  }

  /** `confirmAnswer.confirmAdd` read as a condition: a skipped question
      leaves the field `undefined`, which is falsy. */
  predicate Says(answers: map<Prompt, bool>, p: Prompt)
  {
    p in answers && answers[p]
  }

  /** Each confirmation is shown exactly when its list is non-empty, and a
      change is confirmed exactly when it was shown and the user agreed. */
  lemma ConfirmedOnlyWhenAsked(plan: Plan, user: User)
    ensures ConfirmAdd in Responses(plan, user) <==> |plan.toAdd| > 0
    ensures ConfirmRemove in Responses(plan, user) <==> |plan.toRemove| > 0
    ensures Says(Responses(plan, user), ConfirmAdd) <==> |plan.toAdd| > 0 && user(ConfirmAdd)
    ensures Says(Responses(plan, user), ConfirmRemove) <==> |plan.toRemove| > 0 && user(ConfirmRemove)
  {
  }

  /** The calls the handler means to make for the confirmed changes: the
      additions first, then the removals. */
  function Intended(plan: Plan, answers: map<Prompt, bool>): (r: seq<Call>)
    ensures forall k :: 0 <= k < |r| ==> r[k].owner == Owner
    ensures !Says(answers, ConfirmAdd) ==> forall k :: 0 <= k < |r| ==> r[k].action == Unsubscribe
    ensures !Says(answers, ConfirmRemove) ==> forall k :: 0 <= k < |r| ==> r[k].action == Subscribe
    ensures forall i, j :: 0 <= i < j < |r| && r[i].action == Unsubscribe ==> r[j].action == Unsubscribe
  {
    (if Says(answers, ConfirmAdd) then Calls(Subscribe, plan.toAdd) else [])
    + (if Says(answers, ConfirmRemove) then Calls(Unsubscribe, plan.toRemove) else [])
  }

  /** Lines 46-61: `addSubscriptions` when the additions are confirmed, then
      `removeSubscriptions` when the removals are; a rejected call rejects
      the handler, so a failed addition skips every removal. */
  method Execute(plan: Plan, answers: map<Prompt, bool>, api: Api) returns (issued: seq<Call>, failed: bool)
    ensures BatchResult(issued, failed) == Batch(Intended(plan, answers), api)
  {
    var adds := if Says(answers, ConfirmAdd) then Calls(Subscribe, plan.toAdd) else [];
    var removes := if Says(answers, ConfirmRemove) then Calls(Unsubscribe, plan.toRemove) else [];
    BatchAppend(adds, removes, api);
    issued, failed := [], false;
    if Says(answers, ConfirmAdd) {
      issued, failed := AddSubscriptions(plan.toAdd, api);
      if failed {
        return;
      }
    }
    if Says(answers, ConfirmRemove) {
      var removed;
      removed, failed := RemoveSubscriptions(plan.toRemove, api);
      issued := issued + removed;
    }
  }

  /** Everything executed is an intended call: a prefix of them, all but
      a rejected last one accepted, and all of them when none is rejected. */
  lemma ExecutedPrefix(plan: Plan, answers: map<Prompt, bool>, api: Api)
    ensures var b := Batch(Intended(plan, answers), api);
            && b.issued == Intended(plan, answers)[..|b.issued|]
            && (forall k :: 0 <= k < |b.issued| ==> b.issued[k].owner == Owner)
            && (forall k :: 0 <= k < |b.issued| - 1 ==> api(b.issued[k]))
            && (b.failed <==> |b.issued| > 0 && !api(b.issued[|b.issued| - 1]))
            && (!b.failed ==> b.issued == Intended(plan, answers) && forall k :: 0 <= k < |b.issued| ==> api(b.issued[k]))
  {
    var calls := Intended(plan, answers);
    BatchAccepted(calls, api);
    var b := Batch(calls, api);
    forall k | 0 <= k < |b.issued|
      ensures b.issued[k].owner == Owner
    {
      assert b.issued[k] == calls[k];
    }
  }

  /** Confirming both prompts intends every addition, then every removal. */
  lemma AllConfirmed(plan: Plan, user: User)
    requires user(ConfirmAdd) && user(ConfirmRemove)
    ensures Intended(plan, Responses(plan, user)) == Calls(Subscribe, plan.toAdd) + Calls(Unsubscribe, plan.toRemove)
  {
    var answers := Responses(plan, user);
    if |plan.toAdd| == 0 {
      assert Calls(Subscribe, plan.toAdd) == [];
    }
    if |plan.toRemove| == 0 {
      assert Calls(Unsubscribe, plan.toRemove) == [];
    }
  }

  /** An empty plan asks nothing and intends no call. */
  lemma EmptyPlanIntendsNothing(answers: map<Prompt, bool>)
    ensures Intended(Plan([], []), answers) == []
  {
    assert Calls(Subscribe, []) == [] && Calls(Unsubscribe, []) == [];
  }

  /** Why the handler stopped early. */
  datatype Failure =
    | FetchFailed(error: FetchError)   // a listing request rejected or carried no usable Link header
    | CallRejected(call: Call)         // a subscription call rejected

  /** The default selection for the fetched lists: the watched
      organisation repositories. */
  function Default(orgRepos: seq<string>, subscriptions: seq<string>): seq<string>
  {
    DefaultSelection(AddWatchedStatus(orgRepos, ToSet(subscriptions)))
  }

  /** Lines 41-61: confirm the plan's two lists, then apply what was
      confirmed. On success the result is the plan itself. */
  method ConfirmAndApply(plan: Plan, user: User, api: Api) returns (issued: seq<Call>, r: Result<Plan, Failure>)
    ensures r.Ok? ==> r.value == plan
    ensures r.Err? ==> r.error.CallRejected? && |issued| > 0 && r.error.call == issued[|issued| - 1] && !api(r.error.call)
    ensures forall k :: 0 <= k < |issued| - 1 ==> api(issued[k])
    ensures r.Ok? ==> issued == Intended(plan, Responses(plan, user))
    ensures r.Ok? ==> forall k :: 0 <= k < |issued| ==> api(issued[k])
    ensures r.Ok? && user(ConfirmAdd) && user(ConfirmRemove) ==>
              issued == Calls(Subscribe, plan.toAdd) + Calls(Unsubscribe, plan.toRemove)
    ensures forall k :: 0 <= k < |issued| ==> issued[k].owner == Owner
    ensures plan == Plan([], []) ==> issued == []
    // success or failure, what was sent is the batch of the confirmed calls
    ensures BatchResult(issued, r.Err?) == Batch(Intended(plan, Responses(plan, user)), api)
  {
    var answers := Responses(plan, user);
    if plan == Plan([], []) {
      EmptyPlanIntendsNothing(answers);
    }
    if user(ConfirmAdd) && user(ConfirmRemove) {
      AllConfirmed(plan, user);
    }
    ExecutedPrefix(plan, answers, api);
    var failed;
    issued, failed := Execute(plan, answers, api);
    if failed {
      r := Err(CallRejected(issued[|issued| - 1]));
    } else {
      r := Ok(plan);
    }
  }

  /** Lines 26-61, once both lists are fetched: ask for a selection, plan,
      confirm, apply. On success the result is the plan carried out. */
  method Reconcile(orgRepos: seq<string>, subscriptions: seq<string>, select: Selector, user: User, api: Api)
    returns (issued: seq<Call>, r: Result<Plan, Failure>)
    ensures r.Ok? ==> r.value == MakePlan(orgRepos, subscriptions, select(orgRepos, Default(orgRepos, subscriptions)))
    ensures r.Err? ==> r.error.CallRejected? && |issued| > 0 && r.error.call == issued[|issued| - 1] && !api(r.error.call)
    ensures forall k :: 0 <= k < |issued| - 1 ==> api(issued[k])
    ensures r.Ok? ==> issued == Intended(r.value, Responses(r.value, user))
    ensures r.Ok? ==> forall k :: 0 <= k < |issued| ==> api(issued[k])
    ensures r.Ok? && user(ConfirmAdd) && user(ConfirmRemove) ==>
              issued == Calls(Subscribe, r.value.toAdd) + Calls(Unsubscribe, r.value.toRemove)
    ensures forall k :: 0 <= k < |issued| ==> issued[k].owner == Owner
    ensures select(orgRepos, Default(orgRepos, subscriptions)) == Default(orgRepos, subscriptions) ==> issued == []
    ensures var plan := MakePlan(orgRepos, subscriptions, select(orgRepos, Default(orgRepos, subscriptions)));
            BatchResult(issued, r.Err?) == Batch(Intended(plan, Responses(plan, user)), api)
  {
    var default := Default(orgRepos, subscriptions);
    var selected := select(orgRepos, default);
    var plan := MakePlan(orgRepos, subscriptions, selected);
    if selected == default {
      DefaultPlansNothing(orgRepos, subscriptions);
    }
    issued, r := ConfirmAndApply(plan, user, api);
  }

  /** The organisation listing `getOrgRepositories` resolves to. */
  function OrgListing(client: Client): Result<seq<string>, FetchError>
  {
    Listing(client, OrgRequest, Some(DeprecatedMarker))
  }

  /** The subscription listing `getWatchedRepositories` resolves to. */
  function WatchedListing(client: Client): Result<seq<string>, FetchError>
  {
    Listing(client, SubscriptionsRequest, None)
  }

  /** The listing requests the handler sends: the organisation's, then the
      subscriptions' when the first listing succeeded. */
  function ListingRequests(client: Client): seq<Request>
  {
    FetchRequests(client, OrgRequest) + if OrgListing(client).Ok? then FetchRequests(client, SubscriptionsRequest) else []
  }

  /** The plan the handler builds from both fetched lists and the selection. */
  function HandlerPlan(org: seq<string>, subs: seq<string>, select: Selector): Plan
  {
    MakePlan(org, subs, select(org, Default(org, subs)))
  }

  /** The handler (lines 13-62), after the token has been read. `sent` are
      the listing requests, `issued` the subscription calls; on success the
      result is the plan the user went through with. */
  method Handle(client: Client, select: Selector, user: User, api: Api)
    returns (sent: seq<Request>, issued: seq<Call>, r: Result<Plan, Failure>)
    ensures |sent| >= 1 && sent[0] == OrgRequest
    ensures sent == ListingRequests(client)
    // a fetch failure is reported exactly when a listing fails, and then nothing is called
    ensures r.Err? && r.error.FetchFailed? <==> OrgListing(client).Err? || WatchedListing(client).Err?
    ensures r.Err? && r.error.FetchFailed? ==>
              r.error.error == if OrgListing(client).Err? then OrgListing(client).error else WatchedListing(client).error
    ensures r.Err? && r.error.FetchFailed? ==> issued == []
    // with both lists fetched: the plan is built from them, and the calls are the batch of its confirmed calls
    ensures OrgListing(client).Ok? && WatchedListing(client).Ok? ==>
              var plan := HandlerPlan(OrgListing(client).value, WatchedListing(client).value, select);
              && BatchResult(issued, r.Err?) == Batch(Intended(plan, Responses(plan, user)), api)
              && (r.Ok? ==> r.value == plan)
    ensures r.Err? && r.error.CallRejected? ==> |issued| > 0 && r.error.call == issued[|issued| - 1] && !api(r.error.call)
    ensures forall k :: 0 <= k < |issued| - 1 ==> api(issued[k])
    ensures r.Ok? ==> issued == Intended(r.value, Responses(r.value, user))
    ensures r.Ok? ==> forall k :: 0 <= k < |issued| ==> api(issued[k])
    ensures r.Ok? && user(ConfirmAdd) && user(ConfirmRemove) ==>
              issued == Calls(Subscribe, r.value.toAdd) + Calls(Unsubscribe, r.value.toRemove)
    ensures forall k :: 0 <= k < |issued| ==> issued[k].owner == Owner
    ensures (forall choices, default :: select(choices, default) == default) ==> issued == []
  {
    ListingsStartWithOrg(client);
    var lists;
    sent, lists := FetchLists(client);
    if lists.Err? {
      return sent, [], Err(FetchFailed(lists.error));
    }
    issued, r := Reconcile(lists.value.0, lists.value.1, select, user, api);
  }

  /** Lines 19-22: the organisation listing, then the subscription listing,
      the second only when the first succeeded. */
  method FetchLists(client: Client) returns (sent: seq<Request>, r: Result<(seq<string>, seq<string>), FetchError>)
    ensures sent == ListingRequests(client)
    ensures r.Ok? <==> OrgListing(client).Ok? && WatchedListing(client).Ok?
    ensures r.Ok? ==> r.value == (OrgListing(client).value, WatchedListing(client).value)
    ensures r.Err? ==> r.error == if OrgListing(client).Err? then OrgListing(client).error else WatchedListing(client).error
  {
    var orgSent, org := FetchOrg(client);
    if org.Err? {
      assert ListingRequests(client) == orgSent + [];
      return orgSent, Err(org.error);
    }
    var watchSent, watched := FetchWatched(client);
    assert ListingRequests(client) == orgSent + watchSent;
    sent := orgSent + watchSent;
    if watched.Err? {
      return sent, Err(watched.error);
    }
    r := Ok((org.value, watched.value));
  }

  /** The organisation listing is requested first. */
  lemma ListingsStartWithOrg(client: Client)
    ensures |ListingRequests(client)| >= 1 && ListingRequests(client)[0] == OrgRequest
  {
    FetchedRequestsSucceed(client, OrgRequest);
  }

  /** Both lists are sorted, and the organisation list holds no deprecated name. */
  lemma ListingsSorted(client: Client)
    ensures OrgListing(client).Ok? ==> Sorted(OrgListing(client).value)
    ensures OrgListing(client).Ok? ==> forall n :: n in OrgListing(client).value ==> !Strings.Contains(n, DeprecatedMarker)
    ensures WatchedListing(client).Ok? ==> Sorted(WatchedListing(client).value)
  {
    ListingResolved(client, OrgRequest, Some(DeprecatedMarker));
    ListingResolved(client, SubscriptionsRequest, None);
  }

  /** When both listings succeed, every listing request sent succeeded. */
  lemma ListingsSucceed(client: Client)
    ensures OrgListing(client).Ok? && WatchedListing(client).Ok? ==>
              forall k :: 0 <= k < |ListingRequests(client)| ==> client(ListingRequests(client)[k]).Ok?
  {
    if OrgListing(client).Ok? && WatchedListing(client).Ok? {
      FetchedRequestsSucceed(client, OrgRequest);
      FetchedRequestsSucceed(client, SubscriptionsRequest);
      AllSucceed(client, FetchRequests(client, OrgRequest), FetchRequests(client, SubscriptionsRequest));
    }
  }

  lemma AllSucceed(client: Client, a: seq<Request>, b: seq<Request>)
    requires forall k :: 0 <= k < |a| ==> client(a[k]).Ok?
    requires forall k :: 0 <= k < |b| ==> client(b[k]).Ok?
    ensures forall k :: 0 <= k < |a + b| ==> client((a + b)[k]).Ok?
  {
    forall k | 0 <= k < |a + b|
      ensures client((a + b)[k]).Ok?
    {
      if k >= |a| {
        assert (a + b)[k] == b[k - |a|];
      }
    }
  }

  /** `getOrgRepositories`, as the handler sees it. */
  method FetchOrg(client: Client) returns (sent: seq<Request>, r: Result<seq<string>, FetchError>)
    ensures sent == FetchRequests(client, OrgRequest) && r == OrgListing(client)
  {
    sent, r := GetOrgRepositories(client);
  }

  /** `getWatchedRepositories`, as the handler sees it. */
  method FetchWatched(client: Client) returns (sent: seq<Request>, r: Result<seq<string>, FetchError>)
    ensures sent == FetchRequests(client, SubscriptionsRequest) && r == WatchedListing(client)
  {
    sent, r := GetWatchedRepositories(client);
  }
}

=== FILE: repositories.dfy ===
/** `getRepositories`, `getOrgRepositories`, `getWatchedRepositories` and the
    comparator `alphabeticallyCaseInsensitive` (lib/commands/query.js:117-149,
    214-216): page payloads flattened, mapped to `full_name`, stably sorted
    by lower-cased name and, for the organisation list, filtered. */
module Repositories {
  import opened Outcomes
  import opened Strings
  import opened Sequences
  import opened Paging

  /* ---------------------------------------------------------------- *
   *  The comparator and the order it induces                           *
   * ---------------------------------------------------------------- */

  /** `a` sorts no later than `b` when case is ignored. */
  predicate KeyLe(a: string, b: string)
  {
    LexLe(Lower(a), Lower(b))
  }

  /** `alphabeticallyCaseInsensitive(a, b)`: negative when `a` sorts first,
      zero when the lower-cased names are equal, positive otherwise. */
  function CompareCaseInsensitive(a: string, b: string): (r: int)
    ensures r < 0 <==> !KeyLe(b, a)
    ensures r == 0 <==> Lower(a) == Lower(b)
    ensures r > 0 <==> !KeyLe(a, b)
    ensures -1 <= r <= 1
  {
    LexTotal(Lower(a), Lower(b));
    LexReflexive(Lower(a));
    assert LexLe(Lower(a), Lower(b)) && LexLe(Lower(b), Lower(a)) ==> Lower(a) == Lower(b) by {
      if LexLe(Lower(a), Lower(b)) && LexLe(Lower(b), Lower(a)) {
        LexAntisymmetric(Lower(a), Lower(b));
      }
    }
    if Lower(a) == Lower(b) then 0
    else if LexLe(Lower(a), Lower(b)) then -1
    else 1
  }

  /** The comparator is antisymmetric, as `Array.prototype.sort` requires. */
  lemma CompareAntisymmetric(a: string, b: string)
    ensures CompareCaseInsensitive(a, b) == -CompareCaseInsensitive(b, a)
  {
  }

  /** The comparator is transitive, as `Array.prototype.sort` requires. */
  lemma CompareTransitive(a: string, b: string, c: string)
    requires CompareCaseInsensitive(a, b) <= 0 && CompareCaseInsensitive(b, c) <= 0
    ensures CompareCaseInsensitive(a, c) <= 0
  {
    LexTransitive(Lower(a), Lower(b), Lower(c));
  }

  /** Ordered by lower-cased name, no two elements out of order. */
  predicate Sorted(s: seq<string>)
  {
    forall i, j :: 0 <= i < j < |s| ==> KeyLe(s[i], s[j])
  }

  /** The elements whose lower-cased name is `key`, in their order. */
  function KeyClass(s: seq<string>, key: string): seq<string>
  {
    Filter(s, (x: string) => Lower(x) == key)
  }

  /** Stability: every class of equal keys keeps its relative order. */
  ghost predicate SameKeyClasses(a: seq<string>, b: seq<string>)
  {
    forall key :: KeyClass(a, key) == KeyClass(b, key)
  }

  /* ---------------------------------------------------------------- *
   *  The stable sort                                                   *
   * ---------------------------------------------------------------- */

  /** A sorted sequence whose head sorts strictly after `key` has no
      element with that key. */
  lemma EmptyClassBelowHead(t: seq<string>, x: string)
    requires Sorted(t) && |t| > 0 && CompareCaseInsensitive(x, t[0]) < 0
    ensures KeyClass(t, Lower(x)) == []
  {
    forall i | 0 <= i < |t|
      ensures Lower(t[i]) != Lower(x)
    {
      if i > 0 {
        assert KeyLe(t[0], t[i]);
      }
    }
    FilterNone(t, (y: string) => Lower(y) == Lower(x));
  }

  /** Inserting `x` after every element that does not sort after it. */
  function Insert(x: string, t: seq<string>): (r: seq<string>)
    requires Sorted(t)
    ensures Sorted(r)
    ensures multiset(r) == multiset(t) + multiset{x}
    ensures forall key :: KeyClass(r, key) == if Lower(x) == key then KeyClass(t, key) + [x] else KeyClass(t, key)
  {
    if |t| == 0 then
      [x]
    else if CompareCaseInsensitive(x, t[0]) < 0 then
      EmptyClassBelowHead(t, x);
      InsertFront(x, t);
      [x] + t
    else
      var rest := Insert(x, t[1..]);
      InsertAfterHead(x, t, rest);
      [t[0]] + rest
  }

  lemma InsertFront(x: string, t: seq<string>)
    requires Sorted(t) && |t| > 0 && CompareCaseInsensitive(x, t[0]) < 0
    requires KeyClass(t, Lower(x)) == []
    ensures Sorted([x] + t)
    ensures forall key :: KeyClass([x] + t, key) == if Lower(x) == key then KeyClass(t, key) + [x] else KeyClass(t, key)
  {
    var r := [x] + t;
    forall i, j | 0 <= i < j < |r|
      ensures KeyLe(r[i], r[j])
    {
      if i == 0 {
        LexTotal(Lower(x), Lower(t[0]));
        if j > 1 {
          LexTransitive(Lower(x), Lower(t[0]), Lower(t[j - 1]));
        }
      }
    }
    ConsClasses(x, t);
  }

  lemma InsertAfterHead(x: string, t: seq<string>, rest: seq<string>)
    requires Sorted(t) && |t| > 0 && CompareCaseInsensitive(x, t[0]) >= 0
    requires Sorted(rest)
    requires multiset(rest) == multiset(t[1..]) + multiset{x}
    requires forall key :: KeyClass(rest, key) == if Lower(x) == key then KeyClass(t[1..], key) + [x] else KeyClass(t[1..], key)
    ensures Sorted([t[0]] + rest)
    ensures multiset([t[0]] + rest) == multiset(t) + multiset{x}
    ensures forall key :: KeyClass([t[0]] + rest, key) == if Lower(x) == key then KeyClass(t, key) + [x] else KeyClass(t, key)
  {
    assert t == [t[0]] + t[1..];
    HeadBeforeInserted(x, t, rest);
    forall key
      ensures KeyClass([t[0]] + rest, key) == if Lower(x) == key then KeyClass(t, key) + [x] else KeyClass(t, key)
    {
      ClassAfterHead(x, t[0], t[1..], rest, key);
    }
  }

  lemma ClassAfterHead(x: string, h: string, tail: seq<string>, rest: seq<string>, key: string)
    requires KeyClass(rest, key) == if Lower(x) == key then KeyClass(tail, key) + [x] else KeyClass(tail, key)
    ensures KeyClass([h] + rest, key) == if Lower(x) == key then KeyClass([h] + tail, key) + [x] else KeyClass([h] + tail, key)
  {
    ConsClass(h, rest, key);
    ConsClass(h, tail, key);
    var before := KeyClass(tail, key);
    if Lower(h) == key && Lower(x) == key {
      assert [h] + (before + [x]) == ([h] + before) + [x];
    }
  }

  lemma HeadBeforeInserted(x: string, t: seq<string>, rest: seq<string>)
    requires Sorted(t) && |t| > 0 && CompareCaseInsensitive(x, t[0]) >= 0
    requires Sorted(rest)
    requires multiset(rest) == multiset(t[1..]) + multiset{x}
    ensures Sorted([t[0]] + rest)
  {
    var r := [t[0]] + rest;
    forall j | 0 <= j < |rest|
      ensures KeyLe(t[0], rest[j])
    {
      assert rest[j] in multiset(rest);
      if rest[j] != x {
        assert rest[j] in multiset(t[1..]);
        assert rest[j] in t[1..];
      }
    }
    forall i, j | 0 <= i < j < |r|
      ensures KeyLe(r[i], r[j])
    {
      if i > 0 {
        assert r[i] == rest[i - 1] && r[j] == rest[j - 1];
      } else {
        assert r[j] == rest[j - 1];
      }
    }
  }

  /** Putting `y` in front adds it to the front of its own class only. */
  lemma ConsClass(y: string, s: seq<string>, key: string)
    ensures KeyClass([y] + s, key) == if Lower(y) == key then [y] + KeyClass(s, key) else KeyClass(s, key)
  {
    FilterAppend([y], s, (z: string) => Lower(z) == key);
  }

  lemma ConsClasses(y: string, s: seq<string>)
    ensures forall key :: KeyClass([y] + s, key) ==
              if Lower(y) == key then [y] + KeyClass(s, key) else KeyClass(s, key)
  {
    forall key
      ensures KeyClass([y] + s, key) == if Lower(y) == key then [y] + KeyClass(s, key) else KeyClass(s, key)
    {
      ConsClass(y, s, key);
    }
  }


  /** The sort `Array.prototype.sort` performs with the comparator: stable,
      as the language requires since ES2019. */
  function SortCaseInsensitive(s: seq<string>): (r: seq<string>)
    ensures Sorted(r)
    ensures multiset(r) == multiset(s)
    ensures SameKeyClasses(r, s)
  {
    if |s| == 0 then []
    else
      var init := s[..|s| - 1];
      var x := s[|s| - 1];
      assert s == init + [x];
      var sortedInit := SortCaseInsensitive(init);
      var r := Insert(x, sortedInit);
      AppendedClasses(init, x);
      r
  }

  /** Appending `x` adds it to the end of its own class only. */
  lemma AppendedClasses(init: seq<string>, x: string)
    ensures forall key :: KeyClass(init + [x], key) ==
              if Lower(x) == key then KeyClass(init, key) + [x] else KeyClass(init, key)
  {
    forall key
      ensures KeyClass(init + [x], key) == if Lower(x) == key then KeyClass(init, key) + [x] else KeyClass(init, key)
    {
      FilterAppend(init, [x], (y: string) => Lower(y) == key);
    }
  }

  /** Equal sequences have the same key classes; conversely equal key
      classes mean the same elements with the same multiplicities. */
  lemma SameClassesSameElements(a: seq<string>, b: seq<string>)
    requires SameKeyClasses(a, b)
    ensures multiset(a) == multiset(b)
  {
    forall x
      ensures multiset(a)[x] == multiset(b)[x]
    {
      FilterCounts(a, (y: string) => Lower(y) == Lower(x));
      FilterCounts(b, (y: string) => Lower(y) == Lower(x));
      assert multiset(KeyClass(a, Lower(x)))[x] == multiset(a)[x];
      assert multiset(KeyClass(b, Lower(x)))[x] == multiset(b)[x];
    }
  }

  /** Two sorted arrangements of the same elements start with equal keys. */
  lemma HeadsShareKey(a: seq<string>, b: seq<string>)
    requires Sorted(a) && Sorted(b) && multiset(a) == multiset(b) && |a| > 0
    ensures |b| > 0 && Lower(a[0]) == Lower(b[0])
  {
    assert |a| == |multiset(a)| == |multiset(b)| == |b|;
    assert a[0] in multiset(b) && b[0] in multiset(a);
    assert a[0] in b && b[0] in a;
    var i :| 0 <= i < |a| && a[i] == b[0];
    var j :| 0 <= j < |b| && b[j] == a[0];
    LexReflexive(Lower(a[0]));
    LexReflexive(Lower(b[0]));
    assert KeyLe(a[0], a[i]);
    assert KeyLe(b[0], b[j]);
    LexAntisymmetric(Lower(a[0]), Lower(b[0]));
  }

  /** Sequences with the same classes and heads with equal keys have equal
      heads, and their tails have the same classes. */
  lemma SameHeadsAndTails(a: seq<string>, b: seq<string>)
    requires SameKeyClasses(a, b) && |a| > 0 && |b| > 0 && Lower(a[0]) == Lower(b[0])
    ensures a[0] == b[0] && SameKeyClasses(a[1..], b[1..])
  {
    var key := Lower(a[0]);
    assert a == [a[0]] + a[1..] && b == [b[0]] + b[1..];
    ConsClass(a[0], a[1..], key);
    ConsClass(b[0], b[1..], key);
    assert KeyClass(a, key) == KeyClass(b, key);
    assert a[0] == KeyClass(a, key)[0] == KeyClass(b, key)[0] == b[0];
    forall k
      ensures KeyClass(a[1..], k) == KeyClass(b[1..], k)
    {
      ConsClass(a[0], a[1..], k);
      ConsClass(b[0], b[1..], k);
      assert KeyClass(a, k) == KeyClass(b, k);
      if k == key {
        assert KeyClass(a[1..], k) == KeyClass(a, k)[1..];
        assert KeyClass(b[1..], k) == KeyClass(b, k)[1..];
      }
    }
  }

  /** The tail of a sorted sequence is sorted. */
  lemma SortedTail(a: seq<string>)
    requires Sorted(a) && |a| > 0
    ensures Sorted(a[1..])
  {
    forall i, j | 0 <= i < j < |a| - 1
      ensures KeyLe(a[1..][i], a[1..][j])
    {
      assert a[1..][i] == a[i + 1] && a[1..][j] == a[j + 1];
    }
  }

  /** A stable sort has exactly one possible result: two sorted sequences
      with the same classes of equal keys are equal. */
  lemma {:induction false} SortedStableUnique(a: seq<string>, b: seq<string>)
    requires Sorted(a) && Sorted(b) && SameKeyClasses(a, b)
    ensures a == b
    decreases |a|
  {
    SameClassesSameElements(a, b);
    assert |a| == |multiset(a)| == |multiset(b)| == |b|;
    if |a| > 0 {
      HeadsShareKey(a, b);
      SameHeadsAndTails(a, b);
      SortedTail(a);
      SortedTail(b);
      SortedStableUnique(a[1..], b[1..]);
      assert a == [a[0]] + a[1..] && b == [b[0]] + b[1..];
    }
  }

  /** Any sorted rearrangement of `s` that keeps equal keys in their order
      is the result of the sort. */
  lemma SortIsTheStableSort(s: seq<string>, r: seq<string>)
    requires Sorted(r) && SameKeyClasses(r, s)
    ensures r == SortCaseInsensitive(s)
  {
    SortedStableUnique(r, SortCaseInsensitive(s));
  }

  /* ---------------------------------------------------------------- *
   *  The name filter                                                   *
   * ---------------------------------------------------------------- */

  /** A subsequence of a sorted sequence is sorted. */
  lemma {:induction false} SubsequenceSorted(a: seq<string>, b: seq<string>)
    requires IsSubsequence(a, b) && Sorted(b)
    ensures Sorted(a)
    decreases |b|
  {
    if |a| > 0 {
      if a[0] == b[0] {
        SubsequenceSorted(a[1..], b[1..]);
        SubsequenceMembers(a[1..], b[1..]);
        forall i, j | 0 <= i < j < |a|
          ensures KeyLe(a[i], a[j])
        {
          if i == 0 {
            assert a[j] in a[1..];
            assert a[j] in b[1..];
          } else {
            assert a[i] == a[1..][i - 1] && a[j] == a[1..][j - 1];
          }
        }
      } else {
        SubsequenceSorted(a, b[1..]);
      }
    }
  }

  /** The organisation list leaves out names with this marker. */
  const DeprecatedMarker := "DEPRECATED"

  /** `options?.filter` is truthy: present and not the empty string. */
  predicate FilterActive(filter: Option<string>)
  {
    filter.Some? && |filter.value| > 0
  }

  /** `names.filter((name) => !(name.indexOf(pattern) !== -1))`: the names
      without the case-sensitive substring, every other one kept in order. */
  function WithoutSubstring(names: seq<string>, pattern: string): (r: seq<string>)
    ensures forall n :: n in r <==> n in names && !Contains(n, pattern)
    ensures forall n :: multiset(r)[n] == if Contains(n, pattern) then 0 else multiset(names)[n]
    ensures IsSubsequence(r, names)
    ensures Sorted(names) ==> Sorted(r)
  {
    var keep := (n: string) => !Contains(n, pattern);
    FilterCounts(names, keep);
    FilterSubsequence(names, keep);
    var r := Filter(names, keep);
    assert Sorted(names) ==> Sorted(r) by {
      if Sorted(names) {
        SubsequenceSorted(r, names);
      }
    }
    r
  }

  /* ---------------------------------------------------------------- *
   *  getRepositories                                                   *
   * ---------------------------------------------------------------- */

  function FullNames(repos: seq<Repository>): seq<string>
  {
    seq(|repos|, i requires 0 <= i < |repos| => repos[i].fullName)
  }

  /** `.map((response) => response.data).flat().map((repository) => repository.full_name)`. */
  function AllNames(pages: seq<Response>): seq<string>
  {
    if |pages| == 0 then [] else FullNames(pages[0].data) + AllNames(pages[1..])
  }

  /** What `getRepositories` computes from the fetched pages: the names
      sorted case-insensitively, then filtered when a filter is given. */
  function ResolveNames(pages: seq<Response>, filter: Option<string>): (r: seq<string>)
    ensures Sorted(r)
    ensures forall n :: multiset(r)[n] ==
              if FilterActive(filter) && Contains(n, filter.value) then 0 else multiset(AllNames(pages))[n]
    ensures !FilterActive(filter) ==> SameKeyClasses(r, AllNames(pages))
  {
    var sorted := SortCaseInsensitive(AllNames(pages));
    if FilterActive(filter) then WithoutSubstring(sorted, filter.value) else sorted
  }

  /** What `getRepositories` resolves to or rejects with, stated without
      its loop: the resolved names of every page, or the paged fetch's
      failure. */
  function Listing(client: Client, first: Request, filter: Option<string>): Result<seq<string>, FetchError>
  {
    match FetchAll(client, first)
    case Err(e) => Err(e)
    case Ok(pages) => Ok(ResolveNames(pages, filter))
  }

  /** A resolved listing is sorted, and holds no name with an active
      filter's pattern. */
  lemma ListingResolved(client: Client, first: Request, filter: Option<string>)
    ensures Listing(client, first, filter).Ok? ==> Sorted(Listing(client, first, filter).value)
    ensures Listing(client, first, filter).Ok? && FilterActive(filter) ==>
              forall n :: n in Listing(client, first, filter).value ==> !Contains(n, filter.value)
  {
    if FetchAll(client, first).Ok? && FilterActive(filter) {
      FilteredNames(FetchAll(client, first).value, filter.value);
    }
  }

  /** `getRepositories(octokit, path, params, options)`. */
  method GetRepositories(client: Client, first: Request, filter: Option<string>)
    returns (sent: seq<Request>, r: Result<seq<string>, FetchError>)
    ensures |sent| >= 1 && sent[0] == first
    ensures forall k :: 1 <= k < |sent| ==> sent[k] == WithPage(first, k + 1)
    ensures r.Ok? ==> (forall k :: 0 <= k < |sent| ==> client(sent[k]).Ok?)
                      && r.value == ResolveNames(Payloads(client, sent), filter)
    ensures r.Err? && r.error.RequestFailed? ==> client(sent[|sent| - 1]) == Err(r.error.cause)
    // every request but the last one sent succeeded
    ensures forall k :: 0 <= k < |sent| - 1 ==> client(sent[k]).Ok?
    // an unreadable first response stops the listing after one request
    ensures LastPage(client, first).Err? ==> |sent| == 1 && r == Err(LastPage(client, first).error)
    // after a readable first response, a failure is the last page request's own
    ensures LastPage(client, first).Ok? && r.Err? ==>
              r.error.RequestFailed? && r.error.request == sent[|sent| - 1] && client(sent[|sent| - 1]) == Err(r.error.cause)
    // in all: the requests and outcome of the reference listing
    ensures sent == FetchRequests(client, first) && r == Listing(client, first, filter)
    // on success every page 1..max(1, L) was fetched, L read from the first response
    ensures r.Ok? ==> LastPage(client, first).Ok? && |sent| == Max(1, LastPage(client, first).value)
    // and the listing succeeds whenever every page it needs can be fetched
    ensures LastPage(client, first).Ok? &&
            (forall k :: 2 <= k <= LastPage(client, first).value ==> client(WithPage(first, k)).Ok?)
            ==> r.Ok?
  {
    var pages;
    sent, pages := GetAllPages(client, first);
    match pages
    case Err(e) =>
      r := Err(e);
    case Ok(responses) =>
      PayloadsOfResponses(client, sent, responses);
      r := Ok(ResolveNames(responses, filter));
  }

  /** The request `getOrgRepositories` starts from. */
  const OrgRequest := Request("GET /orgs/{org}/repos", map["org" := "exercism", "per_page" := "100"], None)

  /** The request `getWatchedRepositories` starts from. */
  const SubscriptionsRequest := Request("GET /user/subscriptions", map[], None)

  /** Filtering by a non-empty pattern drops exactly the names holding it. */
  lemma FilteredNames(pages: seq<Response>, pattern: string)
    requires |pattern| > 0
    ensures forall n :: n in ResolveNames(pages, Some(pattern)) ==> !Contains(n, pattern)
    ensures forall n :: !Contains(n, pattern) ==>
              multiset(ResolveNames(pages, Some(pattern)))[n] == multiset(AllNames(pages))[n]
  {
    var names := ResolveNames(pages, Some(pattern));
    forall n | n in names
      ensures !Contains(n, pattern)
    {
      assert multiset(names)[n] > 0;
    }
  }

  /** `getOrgRepositories(octokit)`: the organisation's repositories, sorted,
      without the deprecated ones, every other fetched name kept. */
  method GetOrgRepositories(client: Client) returns (sent: seq<Request>, r: Result<seq<string>, FetchError>)
    ensures |sent| >= 1 && sent[0] == OrgRequest
    ensures forall k :: 1 <= k < |sent| ==> sent[k] == WithPage(OrgRequest, k + 1)
    ensures r.Ok? ==> LastPage(client, OrgRequest).Ok? && |sent| == Max(1, LastPage(client, OrgRequest).value)
    ensures LastPage(client, OrgRequest).Ok? &&
            (forall k :: 2 <= k <= LastPage(client, OrgRequest).value ==> client(WithPage(OrgRequest, k)).Ok?)
            ==> r.Ok?
    ensures r.Ok? ==> forall k :: 0 <= k < |sent| ==> client(sent[k]).Ok?
    // every request but the last one sent succeeded
    ensures forall k :: 0 <= k < |sent| - 1 ==> client(sent[k]).Ok?
    // an unreadable first response stops the listing after one request
    ensures LastPage(client, OrgRequest).Err? ==> |sent| == 1 && r == Err(LastPage(client, OrgRequest).error)
    // after a readable first response, a failure is the last page request's own
    ensures LastPage(client, OrgRequest).Ok? && r.Err? ==>
              r.error.RequestFailed? && r.error.request == sent[|sent| - 1] && client(sent[|sent| - 1]) == Err(r.error.cause)
    // in all: the requests and outcome of the reference listing
    ensures sent == FetchRequests(client, OrgRequest) && r == Listing(client, OrgRequest, Some(DeprecatedMarker))
    ensures r.Ok? ==> r.value == ResolveNames(Payloads(client, sent), Some(DeprecatedMarker))
    ensures r.Ok? ==> Sorted(r.value)
    ensures r.Ok? ==> forall n :: n in r.value ==> !Contains(n, DeprecatedMarker)
    ensures r.Ok? ==> forall n :: !Contains(n, DeprecatedMarker) ==>
                        multiset(r.value)[n] == multiset(AllNames(Payloads(client, sent)))[n]
  {
    sent, r := GetRepositories(client, OrgRequest, Some(DeprecatedMarker));
    if r.Ok? {
      FilteredNames(Payloads(client, sent), DeprecatedMarker);
    }
  }

  /** `getWatchedRepositories(octokit)`: every subscription, sorted stably. */
  method GetWatchedRepositories(client: Client) returns (sent: seq<Request>, r: Result<seq<string>, FetchError>)
    ensures |sent| >= 1 && sent[0] == SubscriptionsRequest
    ensures forall k :: 1 <= k < |sent| ==> sent[k] == WithPage(SubscriptionsRequest, k + 1)
    ensures r.Ok? ==> LastPage(client, SubscriptionsRequest).Ok? && |sent| == Max(1, LastPage(client, SubscriptionsRequest).value)
    ensures LastPage(client, SubscriptionsRequest).Ok? &&
            (forall k :: 2 <= k <= LastPage(client, SubscriptionsRequest).value ==> client(WithPage(SubscriptionsRequest, k)).Ok?)
            ==> r.Ok?
    ensures r.Ok? ==> forall k :: 0 <= k < |sent| ==> client(sent[k]).Ok?
    // every request but the last one sent succeeded
    ensures forall k :: 0 <= k < |sent| - 1 ==> client(sent[k]).Ok?
    // an unreadable first response stops the listing after one request
    ensures LastPage(client, SubscriptionsRequest).Err? ==> |sent| == 1 && r == Err(LastPage(client, SubscriptionsRequest).error)
    // after a readable first response, a failure is the last page request's own
    ensures LastPage(client, SubscriptionsRequest).Ok? && r.Err? ==>
              r.error.RequestFailed? && r.error.request == sent[|sent| - 1] && client(sent[|sent| - 1]) == Err(r.error.cause)
    // in all: the requests and outcome of the reference listing
    ensures sent == FetchRequests(client, SubscriptionsRequest) && r == Listing(client, SubscriptionsRequest, None)
    ensures r.Ok? ==> r.value == ResolveNames(Payloads(client, sent), None)
    ensures r.Ok? ==> Sorted(r.value)
    ensures r.Ok? ==> multiset(r.value) == multiset(AllNames(Payloads(client, sent)))
    ensures r.Ok? ==> SameKeyClasses(r.value, AllNames(Payloads(client, sent)))
  {
    sent, r := GetRepositories(client, SubscriptionsRequest, None);
  }
}

=== FILE: sequences.dfy ===
/** Sequence combinators shared by the model: `Array.prototype.filter` and
    the order-preserving "subsequence" relation it produces. */
module Sequences {

  /** `a` can be obtained from `b` by deleting elements, keeping the order. */
  predicate IsSubsequence<T(==)>(a: seq<T>, b: seq<T>)
    decreases |b|
  {
    |a| == 0 || (|b| > 0 && if a[0] == b[0] then IsSubsequence(a[1..], b[1..]) else IsSubsequence(a, b[1..]))
  }

  /** Every element of a subsequence is an element of the sequence. */
  lemma {:induction false} SubsequenceMembers<T>(a: seq<T>, b: seq<T>)
    requires IsSubsequence(a, b)
    ensures forall x :: x in a ==> x in b
    decreases |b|
  {
    if |a| > 0 {
      if a[0] == b[0] {
        SubsequenceMembers(a[1..], b[1..]);
        assert a == [a[0]] + a[1..];
      } else {
        SubsequenceMembers(a, b[1..]);
      }
    }
  }

  /** `s.filter(keep)`: the elements that pass `keep`, in their order. */
  function Filter<T(!new)>(s: seq<T>, keep: T -> bool): (r: seq<T>)
    ensures |r| <= |s|
    ensures forall x :: x in r <==> x in s && keep(x)
  {
    if |s| == 0 then []
    else
      var rest := Filter(s[1..], keep);
      if keep(s[0]) then [s[0]] + rest else rest
  }

  /** Filtering keeps every copy of a kept element and no copy of another. */
  lemma {:induction false} FilterCounts<T(!new)>(s: seq<T>, keep: T -> bool)
    ensures forall x :: multiset(Filter(s, keep))[x] == if keep(x) then multiset(s)[x] else 0
    decreases |s|
  {
    if |s| > 0 {
      assert s == [s[0]] + s[1..];
      FilterCounts(s[1..], keep);
    }
  }

  /** Filtering keeps the order of what it keeps. */
  lemma {:induction false} FilterSubsequence<T(!new)>(s: seq<T>, keep: T -> bool)
    ensures IsSubsequence(Filter(s, keep), s)
    decreases |s|
  {
    if |s| > 0 {
      var rest := Filter(s[1..], keep);
      FilterSubsequence(s[1..], keep);
      if keep(s[0]) {
        assert ([s[0]] + rest)[1..] == rest;
      }
    }
  }

  /** Filtering distributes over concatenation. */
  lemma {:induction false} FilterAppend<T(!new)>(a: seq<T>, b: seq<T>, keep: T -> bool)
    ensures Filter(a + b, keep) == Filter(a, keep) + Filter(b, keep)
    decreases |a|
  {
    if |a| > 0 {
      assert (a + b)[1..] == a[1..] + b;
      FilterAppend(a[1..], b, keep);
    } else {
      assert a + b == b;
    }
  }

  /** A sequence without members is empty. */
  lemma NoMembersEmpty<T>(s: seq<T>)
    requires forall x :: x !in s
    ensures s == []
  {
    forall x
      ensures multiset(s)[x] == 0
    {
      assert x !in s;
    }
    assert multiset(s) == multiset{};
  }

  /** A filter that keeps nothing returns the empty sequence. */
  lemma {:induction false} FilterNone<T(!new)>(s: seq<T>, keep: T -> bool)
    requires forall i :: 0 <= i < |s| ==> !keep(s[i])
    ensures Filter(s, keep) == []
  {
    if |s| > 0 {
      FilterNone(s[1..], keep);
    }
  }
}

=== FILE: strings.dfy ===
/** The JavaScript string built-ins that lib/commands/query.js relies on:
    `indexOf`, `split`, `toLowerCase`, the greedy `\d+` of a regular
    expression and `Number` on a run of decimal digits. */
module Strings {
  import opened Outcomes

  /* ---------------------------------------------------------------- *
   *  Occurrences and indexOf                                          *
   * ---------------------------------------------------------------- */

  /** `pat` occurs in `s` starting at index `i`. */
  predicate OccursAt(s: string, pat: string, i: nat)
  {
    i + |pat| <= |s| && s[i..i + |pat|] == pat
  }

  /** Occurrences in `s[1..]` are the occurrences in `s` shifted left by one. */
  lemma OccursAtTail(s: string, pat: string)
    requires |s| > 0
    ensures forall j: nat :: OccursAt(s[1..], pat, j) <==> OccursAt(s, pat, j + 1)
    ensures forall j: nat :: 0 < j ==> (OccursAt(s, pat, j) <==> OccursAt(s[1..], pat, j - 1))
  {
    forall j: nat
      ensures OccursAt(s[1..], pat, j) <==> OccursAt(s, pat, j + 1)
    {
      if j + 1 + |pat| <= |s| {
        assert s[1..][j..j + |pat|] == s[j + 1..j + 1 + |pat|];
      }
    }
  }

  /** `s.indexOf(pat)`: the least index at which `pat` occurs in `s`;
      `None` plays the role of the `-1` JavaScript returns when there is none. */
  function IndexOf(s: string, pat: string): (r: Option<nat>)
    ensures r.Some? ==> OccursAt(s, pat, r.value)
    ensures r.Some? ==> forall j: nat :: j < r.value ==> !OccursAt(s, pat, j)
    ensures r.None? ==> forall j: nat :: !OccursAt(s, pat, j)
    decreases |s|
  {
    if |s| < |pat| then None
    else if s[..|pat|] == pat then Some(0)
    else
      OccursAtTail(s, pat);
      match IndexOf(s[1..], pat)
      case None => None
      case Some(i) => Some(i + 1)
  }

  /** `s.indexOf(pat) !== -1`. */
  predicate Contains(s: string, pat: string)
  {
    IndexOf(s, pat).Some?
  }

  /** A string that lacks the first character of `pat` cannot contain `pat`. */
  lemma MissingFirstChar(s: string, pat: string)
    requires |pat| > 0
    requires forall i :: 0 <= i < |s| ==> s[i] != pat[0]
    ensures IndexOf(s, pat) == None
  {
    forall j: nat
      ensures !OccursAt(s, pat, j)
    {
      if j + |pat| <= |s| {
        assert s[j..j + |pat|][0] == s[j];
      }
    }
  }

  /** In `p + pat + t`, where `p` lacks the first character of `pat`,
      the first occurrence of `pat` is the one right after `p`. */
  lemma FirstOccurrenceAfter(p: string, pat: string, t: string)
    requires |pat| > 0
    requires forall i :: 0 <= i < |p| ==> p[i] != pat[0]
    ensures IndexOf(p + pat + t, pat) == Some(|p|)
  {
    var s := p + pat + t;
    assert s[|p|..|p| + |pat|] == pat;
    assert OccursAt(s, pat, |p|);
    forall j: nat | j < |p|
      ensures !OccursAt(s, pat, j)
    {
      if j + |pat| <= |s| {
        assert s[j..j + |pat|][0] == s[j] == p[j];
      }
    }
  }

  /* ---------------------------------------------------------------- *
   *  split and join                                                    *
   * ---------------------------------------------------------------- */

  /** Everything before the first occurrence of `sep` is free of `sep`. */
  lemma BeforeFirstOccurrence(s: string, sep: string, i: nat)
    requires |sep| > 0
    requires IndexOf(s, sep) == Some(i)
    ensures !Contains(s[..i], sep)
  {
    var p := s[..i];
    forall j: nat
      ensures !OccursAt(p, sep, j)
    {
      if j + |sep| <= |p| {
        assert j < i;
        assert !OccursAt(s, sep, j);
        assert p[j..j + |sep|] == s[j..j + |sep|];
      }
    }
  }

  /** `s.split(sep)` for a non-empty separator: the pieces between the
      successive leftmost, non-overlapping occurrences of `sep`. There is
      always at least one piece (`"".split(", ")` is `[""]`), and no piece
      contains the separator. */
  function Split(s: string, sep: string): (r: seq<string>)
    requires |sep| > 0
    ensures |r| >= 1
    ensures forall k :: 0 <= k < |r| ==> !Contains(r[k], sep)
    decreases |s|
  {
    match IndexOf(s, sep)
    case None => [s]
    case Some(i) =>
      BeforeFirstOccurrence(s, sep, i);
      [s[..i]] + Split(s[i + |sep|..], sep)
  }

  /** `parts.join(sep)`. */
  function Join(parts: seq<string>, sep: string): string
  {
    if |parts| == 0 then ""
    else if |parts| == 1 then parts[0]
    else parts[0] + sep + Join(parts[1..], sep)
  }

  /** Splitting loses nothing: joining the pieces back gives the input. */
  lemma {:induction false} JoinSplit(s: string, sep: string)
    requires |sep| > 0
    ensures Join(Split(s, sep), sep) == s
    decreases |s|
  {
    match IndexOf(s, sep)
    case None =>
    case Some(i) =>
      var rest := Split(s[i + |sep|..], sep);
      JoinSplit(s[i + |sep|..], sep);
      assert Split(s, sep) == [s[..i]] + rest;
      assert ([s[..i]] + rest)[1..] == rest;
      assert s[i..i + |sep|] == sep;
      assert s == s[..i] + sep + s[i + |sep|..];
  }

  /** Joining pieces that lack the separator's first character and
      splitting again gives back the pieces. */
  lemma {:induction false} SplitJoin(parts: seq<string>, sep: string)
    requires |sep| > 0 && |parts| >= 1
    requires forall k, i :: 0 <= k < |parts| && 0 <= i < |parts[k]| ==> parts[k][i] != sep[0]
    ensures Split(Join(parts, sep), sep) == parts
    decreases |parts|
  {
    if |parts| == 1 {
      MissingFirstChar(parts[0], sep);
    } else {
      var t := Join(parts[1..], sep);
      var s := parts[0] + sep + t;
      FirstOccurrenceAfter(parts[0], sep, t);
      assert s[..|parts[0]|] == parts[0];
      assert s[|parts[0]| + |sep|..] == t;
      SplitJoin(parts[1..], sep);
      assert [parts[0]] + parts[1..] == parts;
    }
  }

  /* ---------------------------------------------------------------- *
   *  Case and order                                                    *
   * ---------------------------------------------------------------- */

  /** `toLowerCase` on one character, restricted to ASCII letters. */
  function LowerChar(c: char): char
  {
    if 'A' <= c <= 'Z' then (c as int + 32) as char else c
  }

  /** `s.toLowerCase()`, restricted to ASCII letters. */
  function Lower(s: string): (r: string)
    ensures |r| == |s|
  {
    seq(|s|, i requires 0 <= i < |s| => LowerChar(s[i]))
  }

  /** Lexicographic order on code points: `a` sorts no later than `b`. */
  predicate LexLe(a: string, b: string)
  {
    |a| == 0 || (|b| > 0 && (a[0] < b[0] || (a[0] == b[0] && LexLe(a[1..], b[1..]))))
  }

  lemma {:induction false} LexReflexive(a: string)
    ensures LexLe(a, a)
  {
    if |a| > 0 {
      LexReflexive(a[1..]);
    }
  }

  lemma {:induction false} LexTotal(a: string, b: string)
    ensures LexLe(a, b) || LexLe(b, a)
  {
    if |a| > 0 && |b| > 0 && a[0] == b[0] {
      LexTotal(a[1..], b[1..]);
    }
  }

  lemma {:induction false} LexTransitive(a: string, b: string, c: string)
    requires LexLe(a, b) && LexLe(b, c)
    ensures LexLe(a, c)
  {
    if |a| > 0 && a[0] == b[0] && b[0] == c[0] {
      LexTransitive(a[1..], b[1..], c[1..]);
    }
  }

  lemma {:induction false} LexAntisymmetric(a: string, b: string)
    requires LexLe(a, b) && LexLe(b, a)
    ensures a == b
  {
    if |a| > 0 {
      LexAntisymmetric(a[1..], b[1..]);
      assert a == [a[0]] + a[1..];
      assert b == [b[0]] + b[1..];
    }
  }

  /* ---------------------------------------------------------------- *
   *  Decimal digits                                                    *
   * ---------------------------------------------------------------- */

  /** The characters `\d` matches in a regular expression without the `u` flag. */
  predicate IsDigit(c: char)
  {
    '0' <= c <= '9'
  }

  predicate AllDigits(s: string)
  {
    forall i :: 0 <= i < |s| ==> IsDigit(s[i])
  }

  /** The greedy `\d*` at the start of `s`: its longest all-digit prefix. */
  function DigitRun(s: string): (r: string)
    ensures |r| <= |s| && r == s[..|r|]
    ensures AllDigits(r)
    ensures |r| < |s| ==> !IsDigit(s[|r|])
  {
    if |s| > 0 && IsDigit(s[0]) then [s[0]] + DigitRun(s[1..]) else []
  }

  /** `Number(ds)` for a string of decimal digits (leading zeros allowed). */
  function DecimalValue(ds: string): nat
    requires AllDigits(ds)
  {
    if |ds| == 0 then 0
    else DecimalValue(ds[..|ds| - 1]) * 10 + (ds[|ds| - 1] as int - '0' as int)
  }

  function DigitChar(d: nat): (c: char)
    requires d < 10
    ensures IsDigit(c) && c as int - '0' as int == d
  {
    ('0' as int + d) as char
  }

  /** The canonical decimal rendering of `n`, as a server writes a page number. */
  function DecimalString(n: nat): (r: string)
    ensures |r| >= 1 && AllDigits(r)
  {
    if n < 10 then [DigitChar(n)] else DecimalString(n / 10) + [DigitChar(n % 10)]
  }

  /** Reading back a rendered number gives the number. */
  lemma {:induction false} DecimalRoundTrip(n: nat)
    ensures DecimalValue(DecimalString(n)) == n
  {
    if n >= 10 {
      var ds := DecimalString(n);
      assert ds[..|ds| - 1] == DecimalString(n / 10);
      DecimalRoundTrip(n / 10);
    }
  }

  /** A digit run stops at the first non-digit: a rendered number followed
      by anything that does not start with a digit is read back whole. */
  lemma {:induction false} DigitRunStops(ds: string, t: string)
    requires AllDigits(ds)
    requires |t| > 0 ==> !IsDigit(t[0])
    ensures DigitRun(ds + t) == ds
    decreases |ds|
  {
    if |ds| > 0 {
      assert (ds + t)[1..] == ds[1..] + t;
      DigitRunStops(ds[1..], t);
      assert ds == [ds[0]] + ds[1..];
    } else {
      assert ds + t == t;
    }
  }
}
